=== FILE: README.md ===
# Flashcard app: storage, deck selection, card entry and generation logic

This project models the decision logic of a small flashcard web app in Dafny and proves
properties of it. The app is a Next.js front end, a few Next.js API routes and a Python
backend. Every part below is modelled as pure functions over immutable data:

- **Storage helpers** (`utils/storage.ts`). The storage-preference default and the
  browser-store JSON read/write helpers (module `LocalStore`). Remote save and read
  against Google Drive (module `Drive`) is a state machine. The remote store is a
  sequence of files, and a file's identifier is its position. Each request the code
  issues is appended to a log. A script of outcomes says whether the transport delivers
  each request, one outcome per request, in order.
- **Deck selector** (`components/DeckSelector.tsx`, module `DeckSelector`). The active
  deck bootstrap on load, selection, the blank-name guard on create, and repointing the
  active deck on delete. The deck repository's answers are inputs. What the component
  asks of the repository is recorded as a list of effects.
- **Manual card entry** (`pages/manualFlashcards.tsx`, module `ManualFlashcards`). The
  add handler, the Add button, and the carousel's wrap-around navigation, composed into
  a page state machine.
- **Storage selector** (`components/StorageSelector.tsx`, module `StorageSelector`).
  Loading the preference on mount, and the rule for accepting a new choice.
- **Storage API routes** (`pages/api/storage/data.ts`, `preference.ts`, `type.ts`;
  modules `DataApi`, `PreferenceApi`, `TypeApi`). Decision tables from method, query or
  body, and session token to status, body and side effect. They also cover the
  preference cookie's round trip through the browser.
- **Flashcard generation** (`backend/app.py`, module `Generate`). The prompt, and how the
  JSON array span is cut out of the language model's output.

Shared pieces:

- `Common` holds `Option`, `Result` and JavaScript's "present" test for strings.
- `Text` holds the JavaScript `trim`, the Python `strip` (with their different whitespace
  sets), and `find`/`rfind`.
- `Json` holds a JSON value datatype with JavaScript truthiness, and the serialiser/parser
  pair as an abstract `Codec`.

Some inputs are parameters rather than part of the model:

- whether code runs on the server or in the browser;
- the browser store's contents;
- the session, reduced to an optional access token or a signed-in flag;
- the transport's outcomes;
- the deck repository's answers;
- the model process's outcome;
- the JSON decoder.

## Model

| member | source | states |
|---|---|---|
| LocalStore.GetStorageType | utils/storage.ts:5-8 | Never empty. On the server it is "local". In the browser it is the stored preference verbatim when that is non-empty, and "local" otherwise. Any other answer is exactly the stored text. |
| LocalStore.UndeclaredPreferencePassesThrough | utils/storage.ts:5-8 | A stored "file", which is not one of the two declared backends, is returned unchanged: there is no membership check. |
| LocalStore.SaveToLocalStorage | utils/storage.ts:11-14 | No-op on the server. In the browser, `key` then holds text that parses like the serialised value. The key set grows by `key` only, and every other key keeps its text. |
| LocalStore.GetFromLocalStorage | utils/storage.ts:16-26 | A value only in the browser, for a present non-empty item, and only as that item's parse. A missing item, an empty item and a parse failure all read as absent. |
| LocalStore.ReadAfterWrite | utils/storage.ts:11-26 | Writing a value the codec round-trips and then reading the same key gives the value back. |
| LocalStore.WriteLeavesOtherKeys | utils/storage.ts:11-26 | A write does not change what any other key reads as, on either side. |
| Drive.QueryFor | utils/storage.ts:116 | The search query is `name='`, then the file name unescaped, then `'`. |
| Drive.UrlCut | utils/storage.ts:116 | The query is spliced into the search URL unencoded, so the `q` parameter ends before its first `&` or `#`. The result is a prefix of the query with no such character, and when it is shorter the next character is one. |
| Drive.Unbroken | utils/storage.ts:116 | The URL parser's deletion of tabs, line feeds and carriage returns: the result holds none of them. Text without them is kept whole (`Drive.UnbrokenKeeps`), and every other character keeps its count (`Drive.UnbrokenCount`). |
| Drive.Received | utils/storage.ts:116 | The `q` parameter the store receives: the query cut at its first `&` or `#`, with tabs and line breaks deleted. It holds none of those five characters. |
| Drive.ReceivedQuery | utils/storage.ts:116 | For a name without `&` or `#`, the store receives the query for the name with its tabs and line breaks deleted. |
| Drive.QueriedName | utils/storage.ts:116 | The store reads a query as a request for the files named `n` only when it is exactly the query for `n` and `n` is plain: no quote, backslash, `&`, `#`, `+`, `%`, tab, line feed or carriage return. |
| Drive.SearchAnswer | utils/storage.ts:116-131 | The store's answer to a delivered search. The query for a plain name is answered with exactly the files so named (`Drive.Matches`). A received query that is an unterminated literal (odd quotes, no backslash, no `%`) is refused. A received query holding `%` is percent-decoded by the store, so its answer is the store's own. |
| Drive.Matches | utils/storage.ts:116-131 | The store's search answer: exactly the files with that name, in increasing identifier order. |
| Drive.Send | utils/storage.ts:44-55 | Every request is logged and consumes one scripted outcome. An undelivered request answers not-ok and leaves the store unchanged. |
| Drive.FirstNamed | utils/storage.ts:129-131 | The first hit is the lowest-numbered file with that name; none when no file has it. |
| Drive.Lookup | utils/storage.ts:113-138 | What the existence check answers: none when the search is not delivered. For a delivered search of a plain name it is the first file so named, or none. |
| Drive.LookupSeesUnbroken | utils/storage.ts:116 | A lookup of a name without `&` or `#` is the lookup of the name with its tabs and line breaks deleted. |
| Drive.StrippedNameLookup | utils/storage.ts:116-131 | A delivered lookup of a name that is plain once its tabs and line breaks are deleted answers the first file with the deleted-form name. |
| Drive.CheckFileExists | utils/storage.ts:113-138 | Exactly one search request with the unescaped query; the store is unchanged and one scripted outcome is consumed. The answer is the first hit of the store's answer, and none when there is no hit and also when the search fails. |
| Drive.UpdateExisting | utils/storage.ts:36-55 | For a found file: one content upload to that identifier and no rename. Success iff it is delivered and the store holds that identifier; then that file's content is the new body and its name is kept. |
| Drive.Download | utils/storage.ts:93-102 | One download request for the identifier, and the store is unchanged. It yields text iff it is delivered and the store holds that identifier, and the text is then that file's content. |
| Drive.CreateNamed | utils/storage.ts:36-76 | For a missing file: an upload, then a rename of the new identifier. Success iff both are delivered. A failed upload issues no rename. A failed rename leaves the new file behind under the default name. |
| Drive.SaveToDrive | utils/storage.ts:29-83 | Without a token: false and no request at all. With a hit: the log is search then content update, with no rename, and success iff the update is delivered to a held identifier. With no hit: search, upload and (if the upload succeeds) rename. Success iff both are delivered, and the orphan stays on a failed rename. |
| Drive.SaveConsumes | utils/storage.ts:29-83 | With a token the save's first request is the search for the name, and every request it issues consumes exactly one scripted outcome. |
| Drive.GetFromDrive | utils/storage.ts:85-110 | Without a token: none and no request. Otherwise the first request is the search and the store is unchanged. A value only when the lookup hits a held identifier and the download is delivered; it is then the parse of that file's content. |
| Drive.SaveThenRead | utils/storage.ts:29-110 | Over a transport that delivers everything, saving a round-trippable value under a plain name succeeds, and a later read returns that value. |
| Drive.FailedLookupDuplicates | utils/storage.ts:134-137 | A failed search makes the save create a second file with the same name. The save reports success, yet a later read still returns the older file's content, given that hits come in creation order (see Left out). |
| Drive.NothingFoundCreates | utils/storage.ts:34-76 | When the lookup answers nothing, the read is none and the save's second request is the upload of a new file. |
| Drive.CutNameNeverFound | utils/storage.ts:116 | A name with `&` or `#` whose text before it has no quote, backslash or `%` (the key `Q&A` gives `Q&A.json`) reaches the store as an unterminated literal. The lookup answers nothing, every read is none and every save uploads a new file. |
| Drive.UnbalancedNameAlwaysCreates | utils/storage.ts:116 | A name with an odd number of quotes and no backslash, `%`, `&` or `#` makes an unterminated literal, with the same consequences: never found, read as none, and a new upload on every save. |
| Drive.PercentNameInterpreted | utils/storage.ts:116 | A name holding `%` (and no `&` or `#`) is sent with its `%` sequences undecoded; the store decodes them, so the search is answered by the store's own reading of the received text, even when the quote count is odd. |
| Drive.QuoteInjectionOverwrites | utils/storage.ts:34-55 | A name with quotes in balance is read by the store as query text. When the store's answer to that text is another file, the save succeeds by overwriting that file's content under its own name, and nothing is created under the given name. |
| Drive.DroppedNameOverwrites | utils/storage.ts:34-55 | Saving `a<TAB>b.json` when `ab.json` exists succeeds by overwriting the content of the first `ab.json`, and keeps that file's name. |
| Drive.DroppedNameLost | utils/storage.ts:29-110 | Saving a name with a tab or line break when no file has its deleted form succeeds by creating a file under the name as given. A later read of that name answers none. |
| DeckSelector.Load | components/DeckSelector.tsx:25-46 | The list is shown as given. A present stored id is shown and reported as-is. Without one, the first listed deck is persisted, shown and reported. With no decks either, nothing is selected or reported. |
| DeckSelector.LoadAdoptsUnlistedId | components/DeckSelector.tsx:31-36 | A stored id that the list does not contain is still adopted as active. |
| DeckSelector.HandlersReportShownDeck | components/DeckSelector.tsx:25-96 | Load, select, create and delete report to the parent only the deck they leave shown. |
| DeckSelector.Select | components/DeckSelector.tsx:48-52 | Persisted pointer, shown deck and report all name the clicked deck, and nothing else changes. |
| DeckSelector.Create | components/DeckSelector.tsx:54-68 | A name that is blank after JavaScript trimming changes nothing and has no effect. Otherwise: create with the untrimmed name and description, show and report the new id, reset and close the form. The persisted pointer is never written. |
| DeckSelector.ConfirmDelete | components/DeckSelector.tsx:70-73 | The deck becomes pending, the dialog opens, and nothing else changes. |
| DeckSelector.Delete | components/DeckSelector.tsx:75-96 | No pending deck: no-op. Otherwise delete it and refresh the list. If it was active, the first remaining deck becomes active (or none) and is reported if present; otherwise the active deck is kept. The pointer is never written. |
| DeckSelector.DeleteNeverKeepsDeletedActive | components/DeckSelector.tsx:84-91 | Once the deleted deck is gone from the list, it is never left active. The active deck is the old one or a remaining one. |
| ManualFlashcards.HandleAdd | pages/manualFlashcards.tsx:123-141 | A blank card returns the empty list, queues nothing and leaves the form. Otherwise it queues an append of the untrimmed card, clears and closes the form, and returns a list holding only the new card. |
| ManualFlashcards.ApplyAll | pages/manualFlashcards.tsx:176 | Queued updates applied in order: a replacement queued last decides the list. Appends alone keep the old list as a prefix and add their cards after it, in the order queued. |
| ManualFlashcards.AddButtonAsWritten | pages/manualFlashcards.tsx:176 | The list afterwards is empty for a blank card and otherwise only the new card, whatever it held before. |
| ManualFlashcards.AddButton | pages/manualFlashcards.tsx:133 | The corrected button. A blank card leaves the list unchanged, and any other card is appended at the end. This equals applying the queued updates alone. |
| ManualFlashcards.AddButtonAsWrittenDropsEarlierCards | pages/manualFlashcards.tsx:176 | Adding ("c","d") to [("a","b")] leaves only ("c","d") as written, and both cards as intended. |
| ManualFlashcards.Right | pages/manualFlashcards.tsx:222-227 | Direction +1. For an index in range it stays in range and equals (i+1) mod len. |
| ManualFlashcards.Left | pages/manualFlashcards.tsx:216-221 | Direction -1. For an index in range it stays in range and equals (i-1) mod len. |
| ManualFlashcards.LeftUndoesRight | pages/manualFlashcards.tsx:216-227 | Left after right, and right after left, return to the same index. |
| ManualFlashcards.RightTimesIndex | pages/manualFlashcards.tsx:222-227 | From an index in range, any number k of right moves lands on (i+k) mod len. |
| ManualFlashcards.LeftTimesIndex | pages/manualFlashcards.tsx:216-221 | From an index in range, any number k of left moves lands on (i-k) mod len, the remainder taken non-negative. |
| ManualFlashcards.FullTurnReturns | pages/manualFlashcards.tsx:216-227 | len consecutive moves in one direction return to the start. |
| ManualFlashcards.Shown | pages/manualFlashcards.tsx:228 | On a page whose carousel is shown, `deck[currentIndex]` is defined and is one of the cards. |
| ManualFlashcards.StepKeepsReachable | pages/manualFlashcards.tsx:213-289 | Every user action keeps the page valid under either Add button: the carousel is shown iff there are cards, and its index is in range. Under the button as written, the list never holds more than one card. |
| ManualFlashcards.IntendedAddAppends | pages/manualFlashcards.tsx:131-141 | Under the corrected button the list only grows. Adding a non-blank card on an open form grows it by exactly that card. |
| StorageSelector.Mount | components/StorageSelector.tsx:11-17 | After mount the shown backend is the preference lookup's answer: "local" or the stored text. The store and the reports are untouched. |
| StorageSelector.HandleStorageChange | components/StorageSelector.tsx:19-29 | Google without a session: one alert and nothing else changes. Local, or any choice when signed in: shown, written under the preference key, and reported with the same value. |
| StorageSelector.AcceptedChoiceReadsBack | components/StorageSelector.tsx:26-28 | After an accepted choice, the preference lookup and a fresh mount both give that choice. |
| StorageSelector.ChoiceIsIdempotent | components/StorageSelector.tsx:26-28 | Making the same choice twice leaves the store and the shown backend as after once. |
| DataApi.Key | pages/api/storage/data.ts:12-16 | The key is usable exactly when it is given once and is non-empty; it is then that text. |
| DataApi.RemoteName | pages/api/storage/data.ts:28 | The remote name is the key followed by ".json". |
| DataApi.OrNull | pages/api/storage/data.ts:29 | `data || null`: a truthy value read from the store is passed through unchanged; a missing or falsy one becomes null. |
| DataApi.HandleGet | pages/api/storage/data.ts:19-33 | A storage type other than "google": 400. Google with no token: 401. With a token: 200 with the read value or null. Only the read touches the remote store. |
| DataApi.HandlePost | pages/api/storage/data.ts:36-59 | Missing data: 400, checked before storage type and auth. A type other than google: 400. Google with no token: 401. Otherwise the save decides: 200 `{success:true}` or 500. |
| DataApi.Handle | pages/api/storage/data.ts:14-65 | A missing, empty or repeated key: 400, before any method check. Any other method: 405. A null POST body: 500. The remote store is touched only by an authenticated request with a valid key, starting with a search for the key's file. The status is one of 200/400/401/405/500. |
| DataApi.PostThenGet | pages/api/storage/data.ts:28-55 | Over a reliable transport, a successful POST of a truthy value is what a later GET of the same key answers. |
| PreferenceApi.CookieFor | pages/api/storage/preference.ts:19 | The header is `storagePreference=` and the value, followed by exactly `; Path=/; HttpOnly; SameSite=Strict; Max-Age=31536000`. |
| PreferenceApi.Handle | pages/api/storage/preference.ts:7-25 | A non-POST: 405 and no cookie. A POST with a null body: 500 "Failed to save preference" and no cookie. A cookie is set iff the method is POST and `type` is exactly "local" or "google"; the response is then 200 `{success:true}` with that cookie. Any other type: 400 and no cookie. |
| PreferenceApi.FileIsRefused | pages/api/storage/preference.ts:14-16 | A POST of type "file" is refused with 400 and no cookie. |
| TypeApi.Handle | pages/api/storage/type.ts:8-21 | A non-GET: 405. A GET: 200 `{type: v}`, where v is the cookie value verbatim when present and non-empty, else "local". |
| TypeApi.CookieReadsBack | pages/api/storage/preference.ts:19 | The Set-Cookie header for a value without `;` is read back by a browser as that value under the preference name. |
| TypeApi.AcceptedPreferenceReadsBack | pages/api/storage/type.ts:14-17 | Any preference the preference endpoint accepts is then answered unchanged by the type endpoint. |
| Generate.Prompt | backend/app.py:23-32 | The prompt is the fixed instructions followed by the submitted text verbatim. |
| Generate.PromptInjective | backend/app.py:23-32 | Different texts give different prompts. |
| Generate.Command | backend/app.py:34 | The model runs as `ollama run llama2:7b` with the prompt as one further argument, unsplit. |
| Generate.ExtractSpan | backend/app.py:41-45 | A missing `[` or `]` is an error with the fixed message. The span is empty iff the last `]` precedes the first `[`. A non-empty span is a contiguous piece from the first `[`, opening with `[`, closing with `]`, with no `]` after it. |
| Generate.EmptySpanIffNoOpenBeforeClose | backend/app.py:41-45 | The span is empty exactly when no `[` occurs before any `]`. |
| Generate.StripKeepsSpan | backend/app.py:38-45 | Cutting the span from the stripped output gives the same result as cutting it from the raw output. |
| Generate.GenerateFlashcards | backend/app.py:22-51 | Status is 200 or 500. It is 200 iff the process exits normally, the span is found and the decoder accepts it; the body is then `{"flashcards": decoded}`, unchecked. Output without `[` or `]` gives 500 with the fixed message. |
| Generate.EmptySpanFails | backend/app.py:41-51 | When no `[` comes before a `]` and the decoder refuses the empty text, the request ends in 500 with the decoder's message. |

## Left out

- Rendering, styling, animation, modals, routing and the other pages are not modelled. The guest sign-in's write of "file" into the preference key (pages/index.tsx:29) appears only as an input to `LocalStore.UndeclaredPreferencePassesThrough`.
- `fetch`, HTTPS, response status codes and the Drive API itself are not modelled. Each request is one scripted outcome (delivered or failed) served by a model store. An exhausted script fails every further request. Asynchronous interleaving is out: every call is awaited in turn.
- The upload's JSON response is assumed well-formed. A delivered upload always yields the new file's identifier.
- A media-only upload is given the display name "Untitled" (`Drive.UntitledName`). The real default name belongs to the Drive service.
- Drive.Matches: Drive's own search result order is not modelled; hits come in creation order.
- Drive.CutNameNeverFound: promises nothing for a name holding `%` before its first `&` or `#`, because the store's decoding can close the literal (`b.json%27#x` reaches it as `name='b.json'`).
- Drive.UnbalancedNameAlwaysCreates: promises nothing for a name holding `%`, because `%27` and `%5C` decode to a quote and a backslash and can balance the query; `Drive.PercentNameInterpreted` states what happens instead.
- The search URL is modelled only as far as it changes the query. Tabs, line feeds and carriage returns are deleted (`Drive.Unbroken`), and the text from the first `&` or `#` on is dropped. The server's decoding of `+` and `%` sequences is not modelled; a name holding them is never read as a plain name query, and a received query holding `%` is answered by the store's input (`Drive.PercentNameInterpreted`), since `%27` or `%5C` may decode to a quote or backslash.
- The Drive query language is modelled in three cases. A query `name='n'` for a plain `n` lists the files named `n`. A query with an odd number of quotes, no backslash and no `%` is an unterminated literal, answered not-ok. The answer to any other query is an input of the model store (`Drive.Remote.otherQueries`).
- `localStorage`, cookies, `JSON.stringify`/`JSON.parse`, `response.json()` and Python's `json.loads` are abstract. They are a map, a cookie map, and a codec or decoder passed in. Round trips are assumed only where a lemma says so (`Json.Faithful`).
- JSON numbers are integers. Floating point is not modelled.
- The next-auth session and the server-side session lookup reduce to an optional access token or a signed-in flag.
- The deck repository functions `getAllDecks`, `createDeck`, `deleteDeck`, `getActiveDeckId` and `setActiveDeck` are not part of this model. Their answers are inputs (the deck list, the stored id, the new deck's id). Calls to them are recorded as effects with no promised invariants.
- The `subprocess` call that runs the model is not modelled. Its outcome is an input: normal exit with output, non-zero exit, or any other raised error. The CORS setup and the FastAPI plumbing are out as well.
- The catch-all 500 paths of the API routes are modelled only where the code can throw on the inputs modelled: a null POST body in data.ts and preference.ts. Failures of the session lookup or of `res.json` are out.
- TypeApi.CookiePair: a browser's cookie parsing is reduced to splitting at the first `;` and then the first `=`. The whitespace trimming of section 5.2 of RFC 6265 is left out. It does not affect the values the preference endpoint sets.
- ManualFlashcards.Right and ManualFlashcards.Left state the index arithmetic only for an index in range, the case that the rendering guard (pages/manualFlashcards.tsx:285) ensures. Reachability of that case is proved separately in `ManualFlashcards.StepKeepsReachable`.
- The carousel's state is reset when the list becomes non-empty after being empty. That follows React's unmount and remount of the component; the model encodes it in `ManualFlashcards.Remount`.

Some behaviours a reader might expect are not what the code does; the model follows the code:

- The stored active deck id is adopted on load without checking that the deck exists.
- Create does not write the persisted active pointer.
- Delete does not clear or rewrite it.
- The preference lookup returns any stored text, not only the two declared backends.

## Findings

| source | as written | input that shows it | evidently intended | confidence | as-written member | corrected member |
|---|---|---|---|---|---|---|
| pages/manualFlashcards.tsx:176 | The Add button calls `setFlashcards(handleAdd())`. `handleAdd` returns a list that is created empty on every render (line 123) holding only the new card, or `[]` for a blank card. That replacement runs after the append `handleAdd` queued (line 133), so the page's list becomes that return value. | The list [("a","b")] and the form ("c","d"), then Add: the list becomes [("c","d")]. A blank form then Add: the list becomes []. | Only the queued append takes effect. A non-blank card is added at the end and a blank one changes nothing. | high; not executed | ManualFlashcards.AddButtonAsWritten (shown by ManualFlashcards.AddButtonAsWrittenDropsEarlierCards) | ManualFlashcards.AddButton (with ManualFlashcards.IntendedAddAppends) |

=== FILE: common.dfy ===
/** Shared vocabulary: optional values, results that carry an error message,
    and JavaScript's truthiness of a nullable string. */
module Common {

  /** `None` stands for JavaScript's `null`/`undefined` or Python's `None`. */
  datatype Option<+T> = None | Some(value: T)

  /** A computation that either yields a value or raises an error with a message. */
  datatype Result<+T> = Ok(value: T) | Err(message: string)

  /** `if (s)` on a `string | null | undefined`: only a present, non-empty string is truthy. */
  predicate Present(s: Option<string>) {
    s.Some? && s.value != ""
  }
}

=== FILE: data_api.dfy ===
/** The data endpoint of the storage API: it validates the `key` query parameter, then
    dispatches GET (read from the remote store) and POST (write to it), refusing every
    storage type but Google and every unauthenticated Google request. The session lookup
    is an input: the access token it yields, if any. */
module DataApi {
  import opened Common
  import opened Json
  import opened Drive

  /** A query parameter: given once, or repeated (an array). */
  datatype QueryValue = One(text: string) | Many(items: seq<string>)

  /** The parts of a request the handler reads. A `null` body is `Null`. */
  datatype ApiRequest = ApiRequest(verb: string, query: map<string, QueryValue>, body: Json)

  /** Status code and JSON body. */
  datatype Response = Response(status: int, body: Json)

  function Error(status: int, message: string): Response {
    Response(status, Single("error", Str(message)))
  }

  const InvalidKey := Error(400, "Invalid key parameter")
  const InvalidType := Error(400, "Invalid storage type")
  const MissingData := Error(400, "Missing data parameter")
  const AuthRequired := Error(401, "Authentication required for Google Drive storage")
  const SaveFailed := Error(500, "Failed to save to Google Drive")
  const NotAllowed := Error(405, "Method not allowed")
  const InternalError := Error(500, "Internal server error")
  const Saved := Response(200, Single("success", Bool(true)))

  /** The `key` parameter when usable: given once and non-empty. */
  function Key(req: ApiRequest): (r: Option<string>)
    ensures r.Some? <==> "key" in req.query && req.query["key"].One? && req.query["key"].text != ""
    ensures r.Some? ==> r.value != "" && req.query["key"] == One(r.value)
  {
    if "key" in req.query && req.query["key"].One? && req.query["key"].text != "" then Some(req.query["key"].text)
    else None
  }

  /** The name the value for `key` has in the remote store. */
  function RemoteName(key: string): (name: string)
    ensures |name| == |key| + 5 && name[..|key|] == key && name[|key|..] == ".json"
  {
    key + ".json"
  }

  /** `x || null` on a value read from the store. */
  function OrNull(v: Option<Json>): (r: Json)
    ensures r == Null || (v == Some(r) && Truthy(r))
    ensures v.Some? && Truthy(v.value) ==> r == v.value
    ensures !(v.Some? && Truthy(v.value)) ==> r == Null
  {
    if v.Some? && Truthy(v.value) then v.value else Null
  }

  /** The GET branch, once the key is valid. */
  function HandleGet(req: ApiRequest, key: string, token: Option<string>, net: Net, c: Codec): (r: (Response, Net))
    ensures !("storageType" in req.query && req.query["storageType"] == One("google")) ==> r == (InvalidType, net)
    ensures "storageType" in req.query && req.query["storageType"] == One("google") ==>
      && (!Present(token) ==> r == (AuthRequired, net))
      && (Present(token) ==>
            var read := GetFromDrive(net, c, RemoteName(key), token);
            r == (Response(200, OrNull(read.0)), read.1))
  {
    if "storageType" in req.query && req.query["storageType"] == One("google") then
      if !Present(token) then (AuthRequired, net)
      else
        var (data, net1) := GetFromDrive(net, c, RemoteName(key), token);
        (Response(200, OrNull(data)), net1)
    else (InvalidType, net)
  }

  /** The POST branch, once the key is valid and the body is not `null`. */
  function HandlePost(req: ApiRequest, key: string, token: Option<string>, net: Net, c: Codec): (r: (Response, Net))
    requires req.body != Null
    ensures Property(req.body, "data") == None ==> r == (MissingData, net)
    ensures Property(req.body, "data").Some? && Property(req.body, "storageType") != Some(Str("google")) ==> r == (InvalidType, net)
    ensures Property(req.body, "data").Some? && Property(req.body, "storageType") == Some(Str("google")) ==>
      && (!Present(token) ==> r == (AuthRequired, net))
      && (Present(token) ==>
            var saved := SaveToDrive(net, c, RemoteName(key), Property(req.body, "data").value, token);
            r == (if saved.0 then Saved else SaveFailed, saved.1))
  {
    match Property(req.body, "data")
    case None => (MissingData, net)
    case Some(data) =>
      if Property(req.body, "storageType") == Some(Str("google")) then
        if !Present(token) then (AuthRequired, net)
        else
          var (ok, net1) := SaveToDrive(net, c, RemoteName(key), data, token);
          (if ok then Saved else SaveFailed, net1)
      else (InvalidType, net)
  }

  /** The handler. An unusable key is refused before the method is looked at; then GET and
      POST are dispatched and any other method is refused. Destructuring a `null` POST
      body throws, which the handler reports as an internal error. */
  function Handle(req: ApiRequest, token: Option<string>, net: Net, c: Codec): (r: (Response, Net))
    ensures Key(req).None? ==> r == (InvalidKey, net)
    ensures Key(req).Some? && req.verb != "GET" && req.verb != "POST" ==> r == (NotAllowed, net)
    ensures Key(req).Some? && req.verb == "POST" && req.body == Null ==> r == (InternalError, net)
    ensures r.1 != net ==>
      && Present(token) && Key(req).Some? && |r.1.log| > |net.log|
      && r.1.log[|net.log|] == Call(token.value, Search(QueryFor(RemoteName(Key(req).value))))
    ensures r.0.status in {200, 400, 401, 405, 500}
  {
    match Key(req)
    case None => (InvalidKey, net)
    case Some(key) =>
      if req.verb == "GET" then HandleGet(req, key, token, net, c)
      else if req.verb == "POST" then
        if req.body == Null then (InternalError, net)
        else HandlePost(req, key, token, net, c)
      else (NotAllowed, net)
  }

  /** Over a reliable transport, a successful POST of a value under a plain key is what a
      later GET of the same key answers, when the value is truthy. */
  lemma PostThenGet(key: string, v: Json, token: Option<string>, net: Net, c: Codec)
    requires key != "" && Plain(key + ".json") && Present(token) && Faithful(c, v) && Truthy(v)
    requires Reliable(net.script) && |net.script| >= 5
    ensures
      var post := ApiRequest("POST", map["key" := One(key)], Obj(map["data" := v, "storageType" := Str("google")]));
      var get := ApiRequest("GET", map["key" := One(key), "storageType" := One("google")], Null);
      var (posted, net1) := Handle(post, token, net, c);
      posted == Saved && Handle(get, token, net1, c).0 == Response(200, v)
  {
    SaveThenRead(net, c, RemoteName(key), v, token);
  }
}

=== FILE: deck_selector.dfy ===
/** The decision logic of the deck selector component: bootstrapping the active deck on
    load, selecting a deck, the guard on creating one, and repointing the active deck when
    one is deleted. The deck repository it calls is outside the model: what it returns
    (the deck list, the stored active id, a new deck's id) is an input, and what the
    component asks of it is recorded as an effect. */
module DeckSelector {
  import opened Common
  import opened Text

  type DeckId = string

  /** The component's state: the listed deck ids, the active deck shown, the deck awaiting
      delete confirmation, the create form and the two dialogs. */
  datatype Selector = Selector(
    decks: seq<DeckId>,
    active: Option<DeckId>,
    pending: Option<DeckId>,
    newName: string,
    newDescription: string,
    createOpen: bool,
    deleteOpen: bool)

  /** What a handler asks of the world outside the component. */
  datatype Effect =
    | PersistActive(id: DeckId)                      // setActiveDeck
    | RepoCreate(name: string, description: string)  // createDeck
    | RepoDelete(id: DeckId)                         // deleteDeck
    | Notify(id: DeckId)                             // onDeckSelected

  /** A handler's result: the next state and its effects in order. */
  datatype Step = Step(ui: Selector, effects: seq<Effect>)

  /** The state before the load effect runs. */
  function Initial(): Selector {
    Selector([], None, None, "", "", false, false)
  }

  /** The effects never write the persisted active pointer. */
  predicate NoPointerWrite(effects: seq<Effect>) {
    forall k | 0 <= k < |effects| :: !effects[k].PersistActive?
  }

  /** The load effect, given the repository's deck list and stored active id. A present
      stored id is adopted and reported as it is, whether or not it is listed; without one
      the first listed deck is persisted, shown and reported; with no decks either,
      nothing is selected or reported. */
  function Load(listed: seq<DeckId>, stored: Option<DeckId>): (r: Step)
    ensures r.ui.decks == listed
    ensures Present(stored) ==> r.ui.active == stored && r.effects == [Notify(stored.value)]
    ensures !Present(stored) && |listed| > 0 ==>
      r.ui.active == Some(listed[0]) && r.effects == [PersistActive(listed[0]), Notify(listed[0])]
    ensures !Present(stored) && listed == [] ==> r.ui.active == stored && r.effects == []
    ensures r.ui.pending == None && !r.ui.createOpen && !r.ui.deleteOpen
  {
    var ui := Initial().(decks := listed, active := stored);
    if Present(stored) then Step(ui, [Notify(stored.value)])
    else if |listed| > 0 then Step(ui.(active := Some(listed[0])), [PersistActive(listed[0]), Notify(listed[0])])
    else Step(ui, [])
  }

  /** Clicking a deck: the persisted pointer and the shown deck become that deck, and it is reported. */
  function Select(ui: Selector, id: DeckId): (r: Step)
    ensures r.ui.active == Some(id)
    ensures r.effects == [PersistActive(id), Notify(id)]
    ensures r.ui == ui.(active := Some(id))
  {
    Step(ui.(active := Some(id)), [PersistActive(id), Notify(id)])
  }

  /** The create handler, given the id the repository gives the new deck and the deck list
      afterwards. A name that is blank after trimming changes nothing; otherwise the deck
      is created with the untrimmed name, shown and reported, and the form is reset and
      closed. The persisted pointer is not written. */
  function Create(ui: Selector, newId: DeckId, listedAfter: seq<DeckId>): (r: Step)
    ensures AllIn(ui.newName, IsJsSpace) ==> r == Step(ui, [])
    ensures !AllIn(ui.newName, IsJsSpace) ==>
      && r.effects == [RepoCreate(ui.newName, ui.newDescription), Notify(newId)]
      && r.ui == ui.(decks := listedAfter, active := Some(newId), newName := "", newDescription := "", createOpen := false)
    ensures NoPointerWrite(r.effects)
  {
    if JsTrim(ui.newName) == "" then Step(ui, [])
    else
      Step(ui.(decks := listedAfter, active := Some(newId), newName := "", newDescription := "", createOpen := false),
           [RepoCreate(ui.newName, ui.newDescription), Notify(newId)])
  }

  /** Asking to delete a deck opens the confirmation dialog for it. */
  function ConfirmDelete(ui: Selector, id: DeckId): (r: Selector)
    ensures r.pending == Some(id) && r.deleteOpen
    ensures r.(pending := ui.pending, deleteOpen := ui.deleteOpen) == ui
  {
    ui.(pending := Some(id), deleteOpen := true)
  }

  /** The active deck after deleting `id` with `listedAfter` remaining: the first remaining
      deck (or none) when `id` was active, otherwise unchanged. */
  function Repoint(active: Option<DeckId>, id: DeckId, listedAfter: seq<DeckId>): Option<DeckId> {
    if active == Some(id) then (if |listedAfter| > 0 then Some(listedAfter[0]) else None)
    else active
  }

  /** The confirmed delete, given the deck list afterwards. Without a pending deck nothing
      happens. Otherwise the repository deletes it, the list is refreshed, the active deck
      is repointed to the first remaining deck (or none) when it was the deleted one and
      otherwise kept, a new active deck is reported, and the dialog closes. */
  function Delete(ui: Selector, listedAfter: seq<DeckId>): (r: Step)
    ensures !Present(ui.pending) ==> r == Step(ui, [])
    ensures Present(ui.pending) ==>
      var id := ui.pending.value;
      && r.ui == ui.(decks := listedAfter, active := Repoint(ui.active, id, listedAfter), pending := None, deleteOpen := false)
      && |r.effects| >= 1 && r.effects[0] == RepoDelete(id)
      && r.effects[1..] == (if ui.active == Some(id) && |listedAfter| > 0 && listedAfter[0] != ""
                            then [Notify(listedAfter[0])] else [])
    ensures NoPointerWrite(r.effects)
  {
    if !Present(ui.pending) then Step(ui, [])
    else
      var id := ui.pending.value;
      var next := Repoint(ui.active, id, listedAfter);
      var notes := if ui.active == Some(id) && Present(next) then [Notify(next.value)] else [];
      Step(ui.(decks := listedAfter, active := next, pending := None, deleteOpen := false),
           [RepoDelete(id)] + notes)
  }

  /** Once the repository no longer lists the deleted deck, the active deck is never the
      deleted one: it was either another deck, kept, or is repointed to a remaining one. */
  lemma DeleteNeverKeepsDeletedActive(ui: Selector, listedAfter: seq<DeckId>)
    requires Present(ui.pending) && ui.pending.value !in listedAfter
    ensures Delete(ui, listedAfter).ui.active != ui.pending
    ensures Delete(ui, listedAfter).ui.active.Some? ==>
      Delete(ui, listedAfter).ui.active == ui.active || Delete(ui, listedAfter).ui.active.value in listedAfter
  {
  }

  /** The load adopts a stored id the list does not contain. */
  lemma LoadAdoptsUnlistedId()
    ensures Load(["a"], Some("gone")).ui.active == Some("gone")
    ensures "gone" !in Load(["a"], Some("gone")).ui.decks
  {
  }

  /** Every deck a step reports to the parent is the deck the step leaves shown. */
  predicate ReportsShown(r: Step) {
    forall k | 0 <= k < |r.effects| :: r.effects[k].Notify? ==> r.ui.active == Some(r.effects[k].id)
  }

  /** Load, select, create and delete all tell the parent only about the deck they show. */
  lemma HandlersReportShownDeck(ui: Selector, listed: seq<DeckId>, stored: Option<DeckId>, id: DeckId)
    ensures ReportsShown(Load(listed, stored))
    ensures ReportsShown(Select(ui, id))
    ensures ReportsShown(Create(ui, id, listed))
    ensures ReportsShown(Delete(ui, listed))
  {
  }
}

=== FILE: drive.dfy ===
/** The remote half of utils/storage.ts: `checkFileExists`, `saveToDrive` and
    `getFromDrive` as a state machine. The remote object store is a sequence of files
    (a file's identifier is its position), every request the code issues is appended to
    a log, and whether the transport delivers each request is read off a script of
    outcomes, one per request, in order. */
module Drive {
  import opened Common
  import opened Json
  import opened Text

  type FileId = nat

  /** A stored object: its display name and its content. */
  datatype File = File(name: string, content: string)

  /** The remote store. Creating a file appends it, so identifiers never change. Queries
      the model does not decode (see `SearchAnswer`) are answered by `otherQueries`, an
      input standing for the store's own query language: a hit list, or a refusal. */
  datatype Remote = Remote(files: seq<File>, otherQueries: (seq<File>, string) -> Option<seq<FileId>>)

  /** What the transport does with one request: delivers it, or fails it (a non-ok
      status or a rejected fetch). */
  datatype Outcome = Delivered | Failed

  /** The requests the code issues, with the parts of them that matter. */
  datatype Request =
    | Search(query: string)                   // GET files?q=<query>
    | CreateMedia(body: string)               // POST upload/files?uploadType=media
    | UpdateMedia(id: FileId, body: string)   // PATCH upload/files/<id>?uploadType=media
    | UpdateName(id: FileId, name: string)    // PATCH files/<id> with {"name": <name>}
    | DownloadMedia(id: FileId)               // GET files/<id>?alt=media

  /** A request together with the bearer credential in its Authorization header. */
  datatype Call = Call(bearer: string, request: Request)

  /** The whole world the protocol acts on. */
  datatype Net = Net(remote: Remote, script: seq<Outcome>, log: seq<Call>)

  /** A response as the code reads it. */
  datatype Reply =
    | NotOk
    | Done
    | Hits(ids: seq<FileId>)
    | Created(id: FileId)
    | Content(text: string)

  /** The display name the store gives an object uploaded without metadata. */
  const UntitledName: string := "Untitled"

  /** The search query the code builds: the file name spliced between quotes, unescaped. */
  function QueryFor(fileName: string): (q: string)
    ensures |q| == |fileName| + 7
    ensures q[..6] == "name='" && q[6..|q| - 1] == fileName && q[|q| - 1] == '\''
  {
    "name='" + fileName + "'"
  }

  /** Characters that end the `q` parameter of the search URL (`&`) or the URL itself (`#`). */
  predicate UrlCutter(ch: char) {
    ch == '&' || ch == '#'
  }

  /** The `q` parameter the store receives when `q` is spliced into the URL unencoded: the
      text up to the first `&` or `#`. */
  function UrlCut(q: string): (w: string)
    ensures w <= q
    ensures forall k | 0 <= k < |w| :: !UrlCutter(w[k])
    ensures |w| < |q| ==> UrlCutter(q[|w|])
  {
    if q == [] || UrlCutter(q[0]) then [] else [q[0]] + UrlCut(q[1..])
  }

  /** Characters the URL parser deletes wherever they occur: tab, line feed, carriage return. */
  predicate UrlDropped(ch: char) {
    ch == '\t' || ch == '\n' || ch == '\r'
  }

  /** `s` with every tab, line feed and carriage return deleted. */
  function Unbroken(s: string): (r: string)
    ensures |r| <= |s|
    ensures forall k | 0 <= k < |r| :: !UrlDropped(r[k])
  {
    if s == [] then [] else (if UrlDropped(s[0]) then [] else [s[0]]) + Unbroken(s[1..])
  }

  /** The `q` parameter the store receives when `q` is spliced into the URL unencoded: the
      URL parser deletes tabs and line breaks, and the text from the first `&` or `#` on is
      not part of the parameter. */
  function Received(q: string): (w: string)
    ensures forall k | 0 <= k < |w| :: !UrlCutter(w[k]) && !UrlDropped(w[k])
  {
    UnbrokenKeepsOut(UrlCut(q));
    Unbroken(UrlCut(q))
  }

  /** A name the search URL carries unchanged and that needs no escaping inside a quoted
      query literal: no quote, backslash, `&`, `#`, `+`, `%`, tab, line feed or carriage
      return. */
  predicate Plain(name: string) {
    && '\'' !in name && '\\' !in name
    && '&' !in name && '#' !in name && '+' !in name && '%' !in name
    && '\t' !in name && '\n' !in name && '\r' !in name
  }

  /** How the store reads a query: `name='<n>'` for a plain `n` asks for the files named
      `n`; any other text is not of that form. */
  function QueriedName(q: string): (r: Option<string>)
    ensures r.Some? ==> Plain(r.value) && q == QueryFor(r.value)
  {
    if |q| >= 7 && q[..6] == "name='" && q[|q| - 1] == '\'' && Plain(q[6..|q| - 1]) then
      assert q == "name='" + q[6..|q| - 1] + "'";
      Some(q[6..|q| - 1])
    else None
  }

  /** A query with an odd number of quotes, no backslash to escape one and no `%`: an
      unterminated string literal, which the store refuses. The store percent-decodes the
      query first, so a `%` sequence may turn into a quote or a backslash; a query holding
      `%` is left to the store. */
  predicate Unbalanced(q: string) {
    Count(q, '\'') % 2 == 1 && '\\' !in q && '%' !in q
  }

  /** The identifiers of the files named `name`, in increasing order. */
  function Matches(files: seq<File>, name: string): (r: seq<FileId>)
    ensures forall k | 0 <= k < |r| :: r[k] < |files| && files[r[k]].name == name
    ensures forall i | 0 <= i < |files| && files[i].name == name :: i in r
    ensures forall k, j | 0 <= k < j < |r| :: r[k] < r[j]
  {
    if |files| == 0 then []
    else
      var last := |files| - 1;
      Matches(files[..last], name) + (if files[last].name == name then [last] else [])
  }

  /** What the store answers to a delivered search for the query text `q`: the store
      receives the text the URL carries (see `Received`); a plain name query lists the
      files so named; an unbalanced query is refused; any other is up to the store. */
  function SearchAnswer(remote: Remote, q: string): (r: Option<seq<FileId>>)
    ensures forall n {:trigger QueryFor(n)} | Plain(n) && q == QueryFor(n) :: r == Some(Matches(remote.files, n))
    ensures Unbalanced(Received(q)) ==> r == None
    ensures '%' in Received(q) ==> r == remote.otherQueries(remote.files, Received(q))
  {
    var w := Received(q);
    PlainQueriesRead(q);
    UnbalancedUnread(w);
    PercentUnread(w);
    match QueriedName(w)
    case Some(n) => Some(Matches(remote.files, n))
    case None => if Unbalanced(w) then None else remote.otherQueries(remote.files, w)
  }

  /** What the store does with a request the transport delivered. */
  function Serve(remote: Remote, req: Request): (Reply, Remote) {
    var files := remote.files;
    match req
    case Search(q) =>
      (match SearchAnswer(remote, q)
       case None => (NotOk, remote)
       case Some(ids) => (Hits(ids), remote))
    case CreateMedia(body) =>
      (Created(|files|), remote.(files := files + [File(UntitledName, body)]))
    case UpdateMedia(id, body) =>
      if id < |files| then (Done, remote.(files := files[id := files[id].(content := body)])) else (NotOk, remote)
    case UpdateName(id, name) =>
      if id < |files| then (Done, remote.(files := files[id := files[id].(name := name)])) else (NotOk, remote)
    case DownloadMedia(id) =>
      if id < |files| then (Content(files[id].content), remote) else (NotOk, remote)
  }

  /** The script after `n` requests have consumed their outcomes. */
  function Drop(script: seq<Outcome>, n: nat): (r: seq<Outcome>)
    ensures |r| == if |script| <= n then 0 else |script| - n
    ensures forall k | 0 <= k < |r| :: r[k] == script[n + k]
  {
    if |script| <= n then [] else script[n..]
  }

  /** Consuming `a` outcomes and then `b` more consumes `a + b`. */
  lemma DropTwice(script: seq<Outcome>, a: nat, b: nat)
    ensures Drop(Drop(script, a), b) == Drop(script, a + b)
  {
  }

  /** The outcome scripted for the `k`-th request from now is a delivery. */
  predicate DeliveredAt(script: seq<Outcome>, k: nat) {
    k < |script| && script[k] == Delivered
  }

  /** Issues one request: it is logged, consumes one scripted outcome, and reaches the
      store only when delivered. An exhausted script fails every further request. The
      store's reading of queries never changes. */
  function Send(net: Net, bearer: string, req: Request): (r: (Reply, Net))
    ensures r.1.log == net.log + [Call(bearer, req)]
    ensures r.1.script == Drop(net.script, 1)
    ensures r.1.remote.otherQueries == net.remote.otherQueries
    ensures !DeliveredAt(net.script, 0) ==> r.0 == NotOk && r.1.remote == net.remote
  {
    var log := net.log + [Call(bearer, req)];
    if net.script == [] then (NotOk, net.(log := log))
    else if net.script[0] == Failed then (NotOk, net.(script := net.script[1..], log := log))
    else
      var (reply, remote) := Serve(net.remote, req);
      (reply, Net(remote, net.script[1..], log))
  }

  /** The first file named `name`, if any. */
  function FirstNamed(files: seq<File>, name: string): (r: Option<FileId>)
    ensures r.Some? ==> r.value < |files| && files[r.value].name == name
    ensures r.Some? ==> forall i | 0 <= i < r.value :: files[i].name != name
    ensures r.None? ==> forall i | 0 <= i < |files| :: files[i].name != name
  {
    var hits := Matches(files, name);
    if |hits| > 0 then
      assert forall i | 0 <= i < hits[0] && files[i].name == name :: i in hits;
      Some(hits[0])
    else None
  }

  /** What the existence lookup issued as `net`'s next request reports for `fileName`: the
      first hit of a delivered search, else nothing. For a plain name that is the first
      file so named. */
  function Lookup(net: Net, fileName: string): (r: Option<FileId>)
    ensures !DeliveredAt(net.script, 0) ==> r == None
    ensures Plain(fileName) && DeliveredAt(net.script, 0) ==> r == FirstNamed(net.remote.files, fileName)
  {
    if !DeliveredAt(net.script, 0) then None
    else
      PlainSearch(net.remote, fileName);
      match SearchAnswer(net.remote, QueryFor(fileName))
      case Some(ids) => if |ids| > 0 then Some(ids[0]) else None
      case None => None
  }

  /** `checkFileExists`: one search request; the first hit's identifier, or `None` when there
      is no hit and also when the search fails for any reason. */
  function CheckFileExists(net: Net, fileName: string, bearer: string): (r: (Option<FileId>, Net))
    ensures r.1.log == net.log + [Call(bearer, Search(QueryFor(fileName)))]
    ensures r.1.remote == net.remote
    ensures r.1.script == Drop(net.script, 1)
    ensures r.0 == Lookup(net, fileName)
  {
    var (reply, net1) := Send(net, bearer, Search(QueryFor(fileName)));
    if reply.Hits? && |reply.ids| > 0 then (Some(reply.ids[0]), net1) else (None, net1)
  }

  /** The content upload to the identifier the lookup answered: one request, no rename. It
      succeeds when delivered to an identifier the store holds. */
  function UpdateExisting(net: Net, bearer: string, id: FileId, body: string): (r: (bool, Net))
    ensures r.1.log == net.log + [Call(bearer, UpdateMedia(id, body))]
    ensures r.1.script == Drop(net.script, 1)
    ensures r.0 <==> DeliveredAt(net.script, 0) && id < |net.remote.files|
    ensures r.1.remote.files == if r.0 then net.remote.files[id := net.remote.files[id].(content := body)]
                                else net.remote.files
  {
    var (reply, net1) := Send(net, bearer, UpdateMedia(id, body));
    (reply != NotOk, net1)
  }

  /** The content download of the identifier the lookup answered: one request, which
      yields that file's content when delivered to an identifier the store holds. */
  function Download(net: Net, bearer: string, id: FileId): (r: (Option<string>, Net))
    ensures r.1.log == net.log + [Call(bearer, DownloadMedia(id))]
    ensures r.1.script == Drop(net.script, 1)
    ensures r.1.remote == net.remote
    ensures r.0.Some? <==> DeliveredAt(net.script, 0) && id < |net.remote.files|
    ensures r.0.Some? ==> r.0.value == net.remote.files[id].content
  {
    var (reply, net1) := Send(net, bearer, DownloadMedia(id));
    if reply.Content? then (Some(reply.text), net1) else (None, net1)
  }

  /** The upload of a new file followed by the request naming it. A failed upload stops
      before the rename; a failed rename leaves the new file under the default name. */
  function CreateNamed(net: Net, bearer: string, fileName: string, body: string): (r: (bool, Net))
    ensures r.0 <==> DeliveredAt(net.script, 0) && DeliveredAt(net.script, 1)
    ensures !DeliveredAt(net.script, 0) ==>
      r.1.log == net.log + [Call(bearer, CreateMedia(body))] && r.1.remote == net.remote
    ensures DeliveredAt(net.script, 0) ==>
      && r.1.log == net.log + [Call(bearer, CreateMedia(body)),
                               Call(bearer, UpdateName(|net.remote.files|, fileName))]
      && r.1.remote.files == net.remote.files + [File(if r.0 then fileName else UntitledName, body)]
    ensures |r.1.log| >= |net.log| && r.1.script == Drop(net.script, |r.1.log| - |net.log|)
  {
    var (reply, net1) := Send(net, bearer, CreateMedia(body));
    if !reply.Created? then (false, net1)
    else
      var (renamed, net2) := Send(net1, bearer, UpdateName(reply.id, fileName));
      DropTwice(net.script, 1, 1);
      (renamed != NotOk, net2)
  }

  /** `saveToDrive`. Without a credential it fails before any request. Otherwise it looks
      the name up; the file the lookup answers gets one content update and no rename; when
      the lookup answers nothing a file is created and then renamed, and a failed rename
      leaves the created file behind under the store's default name. It reports success
      exactly when every request after the lookup succeeded. */
  function SaveToDrive(net: Net, c: Codec, fileName: string, data: Json, token: Option<string>): (r: (bool, Net))
    ensures !Present(token) ==> !r.0 && r.1 == net
    ensures Present(token) && Lookup(net, fileName).Some? ==>
      var id := Lookup(net, fileName).value;
      && r.1.log == net.log + [Call(token.value, Search(QueryFor(fileName))),
                               Call(token.value, UpdateMedia(id, c.stringify(data)))]
      && (r.0 <==> DeliveredAt(net.script, 1) && id < |net.remote.files|)
      && r.1.remote.files == if r.0 then net.remote.files[id := net.remote.files[id].(content := c.stringify(data))]
                             else net.remote.files
    ensures Present(token) && Lookup(net, fileName).None? ==>
      && (r.0 <==> DeliveredAt(net.script, 1) && DeliveredAt(net.script, 2))
      && (!DeliveredAt(net.script, 1) ==>
            && r.1.log == net.log + [Call(token.value, Search(QueryFor(fileName))),
                                     Call(token.value, CreateMedia(c.stringify(data)))]
            && r.1.remote == net.remote)
      && (DeliveredAt(net.script, 1) ==>
            && r.1.log == net.log + [Call(token.value, Search(QueryFor(fileName))),
                                     Call(token.value, CreateMedia(c.stringify(data))),
                                     Call(token.value, UpdateName(|net.remote.files|, fileName))]
            && r.1.remote.files == net.remote.files
                 + [File(if r.0 then fileName else UntitledName, c.stringify(data))])
  {
    if !Present(token) then (false, net)
    else
      var bearer := token.value;
      var body := c.stringify(data);
      var (found, net1) := CheckFileExists(net, fileName, bearer);
      var search := [Call(bearer, Search(QueryFor(fileName)))];
      assert DeliveredAt(net1.script, 0) == DeliveredAt(net.script, 1);
      assert DeliveredAt(net1.script, 1) == DeliveredAt(net.script, 2);
      match found
      case Some(id) =>
        var r := UpdateExisting(net1, bearer, id, body);
        assert r.1.log == net.log + search + [Call(bearer, UpdateMedia(id, body))];
        r
      case None =>
        var r := CreateNamed(net1, bearer, fileName, body);
        assert !DeliveredAt(net.script, 1) ==> r.1.log == net.log + search + [Call(bearer, CreateMedia(body))];
        assert DeliveredAt(net.script, 1) ==>
          r.1.log == net.log + search + [Call(bearer, CreateMedia(body)), Call(bearer, UpdateName(|net.remote.files|, fileName))];
        r
  }

  /** A save issues the lookup first, and each request it issues consumes one scripted
      outcome. */
  lemma SaveConsumes(net: Net, c: Codec, fileName: string, data: Json, token: Option<string>)
    ensures var r := SaveToDrive(net, c, fileName, data, token);
      && |r.1.log| >= |net.log| && r.1.script == Drop(net.script, |r.1.log| - |net.log|)
      && (Present(token) ==>
            |r.1.log| > |net.log| && r.1.log[|net.log|] == Call(token.value, Search(QueryFor(fileName))))
  {
    if Present(token) {
      var bearer := token.value;
      var body := c.stringify(data);
      var (found, net1) := CheckFileExists(net, fileName, bearer);
      var r := SaveToDrive(net, c, fileName, data, token);
      assert |net1.log| == |net.log| + 1 && net1.log[|net.log|] == Call(bearer, Search(QueryFor(fileName)));
      match found
      case Some(id) =>
        var u := UpdateExisting(net1, bearer, id, body);
        assert r == u;
        DropTwice(net.script, 1, 1);
      case None =>
        var u := CreateNamed(net1, bearer, fileName, body);
        assert r == u;
        DropTwice(net.script, 1, |u.1.log| - |net1.log|);
    }
  }

  /** `getFromDrive`. Without a credential it is `None` before any request; otherwise it is
      the parsed content of the file the lookup answers, and `None` when the lookup answers
      nothing, the download is not delivered or names no stored file, or the content does
      not parse. */
  function GetFromDrive(net: Net, c: Codec, fileName: string, token: Option<string>): (r: (Option<Json>, Net))
    ensures !Present(token) ==> r.0 == None && r.1 == net
    ensures r.1.remote == net.remote
    ensures Present(token) ==>
      |r.1.log| > |net.log| && r.1.log[|net.log|] == Call(token.value, Search(QueryFor(fileName)))
    ensures r.0.Some? ==>
      Present(token) && Lookup(net, fileName).Some? && Lookup(net, fileName).value < |net.remote.files| && DeliveredAt(net.script, 1)
    ensures Present(token) && Lookup(net, fileName).Some? && Lookup(net, fileName).value < |net.remote.files| && DeliveredAt(net.script, 1) ==>
      && r.1.log == net.log + [Call(token.value, Search(QueryFor(fileName))),
                               Call(token.value, DownloadMedia(Lookup(net, fileName).value))]
      && r.0 == c.parse(net.remote.files[Lookup(net, fileName).value].content)
  {
    if !Present(token) then (None, net)
    else
      var (found, net1) := CheckFileExists(net, fileName, token.value);
      assert DeliveredAt(net1.script, 0) <==> DeliveredAt(net.script, 1);
      match found
      case None => (None, net1)
      case Some(id) =>
        var (text, net2) := Download(net1, token.value, id);
        if text.Some? then (c.parse(text.value), net2) else (None, net2)
  }


  /** Every outcome left in the script is a delivery. */
  predicate Reliable(script: seq<Outcome>) {
    forall k | 0 <= k < |script| :: script[k] == Delivered
  }

  /** Over a transport that delivers everything, a successful save of a plain name is read
      back: the first file under that name holds exactly the value written. */
  lemma {:induction false} SaveThenRead(net: Net, c: Codec, fileName: string, data: Json, token: Option<string>)
    requires Present(token) && Plain(fileName) && Faithful(c, data)
    requires Reliable(net.script) && |net.script| >= 5
    ensures SaveToDrive(net, c, fileName, data, token).0
    ensures GetFromDrive(SaveToDrive(net, c, fileName, data, token).1, c, fileName, token).0 == Some(data)
  {
    var files := net.remote.files;
    var body := c.stringify(data);
    var net1 := SaveToDrive(net, c, fileName, data, token).1;
    SaveConsumes(net, c, fileName, data, token);
    assert DeliveredAt(net.script, 0) && DeliveredAt(net.script, 1) && DeliveredAt(net.script, 2);
    assert |net1.log| - |net.log| <= 3;
    assert DeliveredAt(net1.script, 0) && DeliveredAt(net1.script, 1);
    var id: FileId;
    match FirstNamed(files, fileName)
    case Some(i) =>
      ReadBackExisting(files, net1.remote.files, i, fileName, body);
      id := i;
    case None =>
      ReadBackNew(files, net1.remote.files, fileName, body);
      id := |files|;
    assert Lookup(net1, fileName) == Some(id);
    assert net1.remote.files[id].content == body;
  }

  /** After the content of the first file named `name` is replaced, that file is still the
      first so named and holds the new content. */
  lemma ReadBackExisting(files: seq<File>, after: seq<File>, id: FileId, name: string, body: string)
    requires FirstNamed(files, name) == Some(id)
    requires after == files[id := files[id].(content := body)]
    ensures FirstNamed(after, name) == Some(id) && after[id].content == body
  {
    NamesDecideMatches(files, after, name);
  }

  /** After a file named `name` is appended where there was none, it is the first so named. */
  lemma ReadBackNew(files: seq<File>, after: seq<File>, name: string, body: string)
    requires FirstNamed(files, name) == None
    requires after == files + [File(name, body)]
    ensures FirstNamed(after, name) == Some(|files|) && after[|files|].content == body
  {
    assert after[..|files|] == files;
  }

  /** Files with the same names in the same positions answer every lookup alike. */
  lemma {:induction false} NamesDecideMatches(a: seq<File>, b: seq<File>, name: string)
    requires |a| == |b| && forall i | 0 <= i < |a| :: a[i].name == b[i].name
    ensures Matches(a, name) == Matches(b, name)
  {
    if |a| > 0 {
      NamesDecideMatches(a[..|a| - 1], b[..|b| - 1], name);
    }
  }

  /** A lookup that fails (here: an undelivered search) does not stop the save: a second
      file with the same name is created, the save reports success, and a later read still
      finds the older file first (the one created earlier), so the value just written is
      not what is read back. */
  lemma {:induction false} FailedLookupDuplicates(net: Net, c: Codec, fileName: string, data: Json, token: Option<string>)
    requires Present(token) && Plain(fileName) && Faithful(c, data)
    requires FirstNamed(net.remote.files, fileName).Some?
    requires |net.script| >= 5 && net.script[0] == Failed && Reliable(net.script[1..])
    ensures SaveToDrive(net, c, fileName, data, token).0
    ensures |Matches(SaveToDrive(net, c, fileName, data, token).1.remote.files, fileName)|
         == |Matches(net.remote.files, fileName)| + 1
    ensures GetFromDrive(SaveToDrive(net, c, fileName, data, token).1, c, fileName, token).0
         == c.parse(net.remote.files[FirstNamed(net.remote.files, fileName).value].content)
  {
    var files := net.remote.files;
    var body := c.stringify(data);
    assert DeliveredAt(net.script, 1) && DeliveredAt(net.script, 2);
    var net1 := SaveToDrive(net, c, fileName, data, token).1;
    var after := files + [File(fileName, body)];
    assert net1.remote.files == after;
    assert after[..|files|] == files;
    assert Matches(after, fileName) == Matches(files, fileName) + [|files|];
    assert net1.script == net.script[3..];
    assert DeliveredAt(net1.script, 0);
    var first := FirstNamed(files, fileName).value;
    assert Lookup(net1, fileName) == Some(first);
  }

  /** A query text without `&` or `#` reaches the store whole. */
  lemma UrlKeeps(q: string)
    requires forall k | 0 <= k < |q| :: !UrlCutter(q[k])
    ensures UrlCut(q) == q
  {
  }

  /** The query for a name without `&` or `#` reaches the store whole. */
  lemma QueryReachesStore(n: string)
    requires '&' !in n && '#' !in n
    ensures UrlCut(QueryFor(n)) == QueryFor(n)
  {
    var q := QueryFor(n);
    forall k | 0 <= k < |q| ensures !UrlCutter(q[k]) {
      if 6 <= k < |q| - 1 { assert q[k] == n[k - 6]; }
      else if k < 6 { assert q[k] == q[..6][k]; }
    }
    UrlKeeps(q);
  }

  /** The query holds the name's quotes and two more. */
  lemma QueryQuotes(n: string)
    ensures Count(QueryFor(n), '\'') == Count(n, '\'') + 2
  {
    CountAppend("name=", "'", '\'');
    CountAppend("name='", n, '\'');
    CountAppend("name='" + n, "'", '\'');
    assert "name=" + "'" == "name='";
  }

  /** The store reads a query built from a plain name as that name. */
  lemma PlainQueriesRead(q: string)
    ensures forall n {:trigger QueryFor(n)} | Plain(n) && q == QueryFor(n) :: QueriedName(Received(q)) == Some(n)
  {
    forall n | Plain(n) && q == QueryFor(n) ensures QueriedName(Received(q)) == Some(n) {
      PlainReceived(n);
      PlainQueryRead(n);
    }
  }

  /** An unterminated literal is not a name query. */
  lemma UnbalancedUnread(w: string)
    ensures Unbalanced(w) ==> QueriedName(w) == None
  {
    if QueriedName(w).Some? {
      QueryQuotes(QueriedName(w).value);
    }
  }

  /** A query holding `%` is not a name query. */
  lemma PercentUnread(w: string)
    ensures '%' in w ==> QueriedName(w) == None
  {
    if QueriedName(w).Some? {
      QueryPercents(QueriedName(w).value);
    }
  }

  /** The query for a name without `%` holds none. */
  lemma QueryPercents(n: string)
    requires '%' !in n
    ensures '%' !in QueryFor(n)
  {
    assert QueryFor(n) == "name='" + n + "'";
  }

  /** Deleting characters never brings in an `&` or `#`. */
  lemma {:induction false} UnbrokenKeepsOut(s: string)
    requires forall k | 0 <= k < |s| :: !UrlCutter(s[k])
    ensures forall k | 0 <= k < |Unbroken(s)| :: !UrlCutter(Unbroken(s)[k])
  {
    if s != [] {
      UnbrokenKeepsOut(s[1..]);
      var h: string := if UrlDropped(s[0]) then [] else [s[0]];
      assert Unbroken(s) == h + Unbroken(s[1..]);
    }
  }

  /** Text without tabs or line breaks is kept whole. */
  lemma {:induction false} UnbrokenKeeps(s: string)
    requires forall k | 0 <= k < |s| :: !UrlDropped(s[k])
    ensures Unbroken(s) == s
  {
    if s != [] {
      UnbrokenKeeps(s[1..]);
      assert s == [s[0]] + s[1..];
    }
  }

  /** Deleting characters piece by piece is deleting them from the whole. */
  lemma {:induction false} UnbrokenAppend(a: string, b: string)
    ensures Unbroken(a + b) == Unbroken(a) + Unbroken(b)
  {
    if a == [] {
      assert a + b == b;
    } else {
      assert (a + b)[1..] == a[1..] + b;
      UnbrokenAppend(a[1..], b);
    }
  }

  /** Deleting tabs and line breaks keeps every other character's count. */
  lemma {:induction false} UnbrokenCount(s: string, c: char)
    requires !UrlDropped(c)
    ensures Count(Unbroken(s), c) == Count(s, c)
  {
    if s != [] {
      UnbrokenCount(s[1..], c);
      var h: string := if UrlDropped(s[0]) then [] else [s[0]];
      CountAppend(h, Unbroken(s[1..]), c);
    }
  }

  /** The store receives the query for a name without `&` or `#` as the query for that
      name with its tabs and line breaks deleted. */
  lemma ReceivedQuery(n: string)
    requires '&' !in n && '#' !in n
    ensures Received(QueryFor(n)) == QueryFor(Unbroken(n))
  {
    QueryReachesStore(n);
    var q := QueryFor(n);
    assert q == ("name='" + n) + "'";
    UnbrokenAppend("name='" + n, "'");
    UnbrokenAppend("name='", n);
    QueryFrame();
    assert Unbroken(q) == ("name='" + Unbroken(n)) + "'";
  }

  /** The fixed parts of the query hold no tab or line break. */
  lemma QueryFrame()
    ensures Unbroken("name='") == "name='" && Unbroken("'") == "'"
  {
    UnbrokenKeeps("name='");
    UnbrokenKeeps("'");
  }

  /** The store receives the query for a plain name unchanged. */
  lemma PlainReceived(n: string)
    requires Plain(n)
    ensures Received(QueryFor(n)) == QueryFor(n)
  {
    ReceivedQuery(n);
    UnbrokenKeeps(n);
  }

  /** The name with tabs and line breaks deleted keeps its quotes, backslashes, `&` and `#`. */
  lemma UnbrokenName(n: string)
    ensures Count(Unbroken(n), '\'') == Count(n, '\'')
    ensures '\'' in Unbroken(n) <==> '\'' in n
    ensures '\\' in Unbroken(n) <==> '\\' in n
    ensures '&' in Unbroken(n) <==> '&' in n
    ensures '#' in Unbroken(n) <==> '#' in n
    ensures '%' in Unbroken(n) <==> '%' in n
  {
    UnbrokenCount(n, '\'');
    UnbrokenCount(n, '\\');
    UnbrokenCount(n, '&');
    UnbrokenCount(n, '#');
    UnbrokenCount(n, '%');
  }

  /** A search for a name without `&` or `#` is answered as the search for that name with
      its tabs and line breaks deleted. */
  lemma SearchSeesUnbroken(remote: Remote, n: string)
    requires '&' !in n && '#' !in n
    ensures SearchAnswer(remote, QueryFor(n)) == SearchAnswer(remote, QueryFor(Unbroken(n)))
  {
    var m := Unbroken(n);
    UnbrokenName(n);
    ReceivedQuery(n);
    ReceivedQuery(m);
    UnbrokenKeeps(m);
  }

  /** A lookup of a name without `&` or `#` is the lookup of that name with its tabs and
      line breaks deleted: `a<TAB>b.json` is looked up as `ab.json`. */
  lemma LookupSeesUnbroken(net: Net, n: string)
    requires '&' !in n && '#' !in n
    ensures Lookup(net, n) == Lookup(net, Unbroken(n))
  {
    SearchSeesUnbroken(net.remote, n);
  }

  /** The store reads the query for a plain name as that name. */
  lemma PlainQueryRead(n: string)
    requires Plain(n)
    ensures QueriedName(QueryFor(n)) == Some(n)
  {
    var q := QueryFor(n);
    assert q[6..|q| - 1] == n;
  }

  /** A delivered search for a plain name lists the files so named. */
  lemma PlainSearch(remote: Remote, n: string)
    ensures Plain(n) ==> SearchAnswer(remote, QueryFor(n)) == Some(Matches(remote.files, n))
  {
  }

  /** A lookup whose query the store refuses answers nothing. */
  lemma RefusedLookup(net: Net, n: string)
    requires SearchAnswer(net.remote, QueryFor(n)) == None
    ensures Lookup(net, n) == None
  {
  }

  /** A lookup whose query the store answers with a list answers that list's first entry. */
  lemma AnsweredLookup(net: Net, n: string, ids: seq<FileId>)
    requires DeliveredAt(net.script, 0) && SearchAnswer(net.remote, QueryFor(n)) == Some(ids) && |ids| > 0
    ensures Lookup(net, n) == Some(ids[0])
  {
  }

  /** A lookup that answers nothing makes the save's second request an upload and the read `None`. */
  lemma NothingFoundCreates(net: Net, c: Codec, fileName: string, data: Json, token: Option<string>)
    requires Present(token) && Lookup(net, fileName) == None
    ensures GetFromDrive(net, c, fileName, token).0 == None
    ensures |SaveToDrive(net, c, fileName, data, token).1.log| >= |net.log| + 2
    ensures SaveToDrive(net, c, fileName, data, token).1.log[|net.log| + 1]
         == Call(token.value, CreateMedia(c.stringify(data)))
  {
    var bearer := token.value;
    var body := c.stringify(data);
    var search := Call(bearer, Search(QueryFor(fileName)));
    var log := SaveToDrive(net, c, fileName, data, token).1.log;
    if DeliveredAt(net.script, 1) {
      assert log == net.log + [search, Call(bearer, CreateMedia(body)), Call(bearer, UpdateName(|net.remote.files|, fileName))];
    } else {
      assert log == net.log + [search, Call(bearer, CreateMedia(body))];
    }
  }

  /** The URL keeps what precedes the first `&` or `#` and drops the rest. */
  lemma UrlCutAt(p: string, x: char, rest: string)
    requires forall k | 0 <= k < |p| :: !UrlCutter(p[k])
    requires UrlCutter(x)
    ensures UrlCut(p + [x] + rest) == p
  {
    var q := p + [x] + rest;
    assert q[|p|] == x;
    assert q[..|p|] == p;
  }

  /** For a name that the URL cuts before any quote, the store receives `name='` and the
      text before the cut. */
  lemma CutQueryText(a: string, x: char, b: string)
    requires UrlCutter(x)
    requires forall k | 0 <= k < |a| :: !UrlCutter(a[k])
    ensures UrlCut(QueryFor(a + [x] + b)) == "name='" + a
  {
    var p := "name='" + a;
    assert QueryFor(a + [x] + b) == p + [x] + (b + "'");
    forall k | 0 <= k < |p| ensures !UrlCutter(p[k]) {
      if k >= 6 { assert p[k] == a[k - 6]; }
    }
    UrlCutAt(p, x, b + "'");
  }

  /** `name='` followed by text without quote, backslash or `%` is an unterminated literal. */
  lemma OpenLiteral(a: string)
    requires '\'' !in a && '\\' !in a && '%' !in a
    ensures Unbalanced("name='" + a) && QueriedName("name='" + a) == None
  {
    var p := "name='" + a;
    OpenPercents(a);
    CountAppend("name=", "'", '\'');
    assert "name=" + "'" == "name='";
    CountAppend("name='", a, '\'');
  }

  /** `name='` followed by text without `%` holds none. */
  lemma OpenPercents(a: string)
    requires '%' !in a
    ensures '%' !in "name='" + a
  {
    assert '%' !in "name='";
  }

  /** The store refuses the query for a name that the URL cuts before any quote, backslash
      or `%`. */
  lemma CutQueryRefused(remote: Remote, a: string, x: char, b: string)
    requires UrlCutter(x)
    requires forall k | 0 <= k < |a| :: !UrlCutter(a[k]) && a[k] != '\'' && a[k] != '\\' && a[k] != '%'
    ensures SearchAnswer(remote, QueryFor(a + [x] + b)) == None
  {
    CutQueryText(a, x, b);
    assert '\'' !in a && '\\' !in a && '%' !in a;
    UnbrokenName(a);
    UnbrokenAppend("name='", a);
    UnbrokenKeeps("name='");
    OpenLiteral(Unbroken(a));
  }

  /** The store reads a query built from a name as that name or not at all. */
  lemma QueryReadsName(n: string)
    ensures QueriedName(QueryFor(n)).Some? ==> QueriedName(QueryFor(n)) == Some(n)
  {
  }

  /** The query for a name without backslash holds none. */
  lemma QueryBackslashes(n: string)
    requires '\\' !in n
    ensures '\\' !in QueryFor(n)
  {
    assert QueryFor(n) == "name='" + n + "'";
  }

  /** A name with an odd number of quotes holds a quote. */
  lemma OddQuotesPresent(n: string)
    requires Count(n, '\'') % 2 == 1
    ensures '\'' in n
  {
  }

  /** The store refuses the query for a name with an odd number of quotes and no backslash,
      `%`, `&` or `#`. */
  lemma UnbalancedQueryRefused(remote: Remote, n: string)
    requires Count(n, '\'') % 2 == 1
    requires '\\' !in n && '%' !in n && '&' !in n && '#' !in n
    ensures SearchAnswer(remote, QueryFor(n)) == None
  {
    OddQuotesPresent(n);
    UnbalancedQueryText(n);
    NonPlainQueryUnread(n);
  }

  /** The query for a name with an odd number of quotes and no backslash, `%`, `&` or `#`
      reaches the store unbalanced. */
  lemma UnbalancedQueryText(n: string)
    requires Count(n, '\'') % 2 == 1
    requires '\\' !in n && '%' !in n && '&' !in n && '#' !in n
    ensures Unbalanced(Received(QueryFor(n)))
  {
    CutQueryQuotes(n);
    ReceivedQuery(n);
    UnbrokenName(n);
    QueryBackslashes(Unbroken(n));
    QueryPercents(Unbroken(n));
    SameParity(Received(QueryFor(n)), n);
  }


  /** The query for a name holding a quote, without `&` or `#`, is not read as a name query. */
  lemma NonPlainQueryUnread(n: string)
    requires '\'' in n && '&' !in n && '#' !in n
    ensures QueriedName(Received(QueryFor(n))) == None
  {
    ReceivedQuery(n);
    UnbrokenName(n);
    QueryReadsName(Unbroken(n));
  }

  /** The store reads the query for a name with quotes in balance, and no `&` or `#`, in its
      own language. */
  lemma BalancedQueryInterpreted(remote: Remote, n: string)
    requires '\'' in n && Count(n, '\'') % 2 == 0
    requires '&' !in n && '#' !in n
    ensures SearchAnswer(remote, QueryFor(n)) == remote.otherQueries(remote.files, Received(QueryFor(n)))
  {
    BalancedQueryText(n);
    NonPlainQueryUnread(n);
  }

  /** The query for a name with quotes in balance and no `&` or `#` reaches the store balanced. */
  lemma BalancedQueryText(n: string)
    requires Count(n, '\'') % 2 == 0 && '&' !in n && '#' !in n
    ensures !Unbalanced(Received(QueryFor(n)))
  {
    CutQueryQuotes(n);
    SameParity(Received(QueryFor(n)), n);
  }

  /** The query the store receives for a name without `&` or `#` holds the name's quotes and
      two more. */
  lemma CutQueryQuotes(n: string)
    requires '&' !in n && '#' !in n
    ensures Count(Received(QueryFor(n)), '\'') == Count(n, '\'') + 2
  {
    ReceivedQuery(n);
    QueryQuotes(Unbroken(n));
    UnbrokenName(n);
  }

  /** Two texts whose quote counts differ by two have quote counts of the same parity. */
  lemma SameParity(q: string, n: string)
    requires Count(q, '\'') == Count(n, '\'') + 2
    ensures Count(q, '\'') % 2 == Count(n, '\'') % 2
  {
    var m := Count(n, '\'');
    assert (m + 2) % 2 == m % 2;
  }


  /** A name without `&` or `#` that holds a `%` reaches the store with that `%`, which the
      store decodes before reading the query; its answer is the store's own. */
  lemma PercentNameInterpreted(remote: Remote, n: string)
    requires '%' in n && '&' !in n && '#' !in n
    ensures SearchAnswer(remote, QueryFor(n)) == remote.otherQueries(remote.files, Received(QueryFor(n)))
  {
    ReceivedQuery(n);
    UnbrokenName(n);
    var m := Unbroken(n);
    var i :| 0 <= i < |m| && m[i] == '%';
    assert QueryFor(m)[6 + i] == '%';
  }

  /** A name whose text before its first `&` or `#` holds no quote, backslash or `%`, as the key
      `Q&A` gives in `Q&A.json`: the store receives `name='` and that text, an unterminated
      literal, and refuses it. Such a file is never found: every save uploads a new one
      and every read is `None`. */
  lemma CutNameNeverFound(net: Net, c: Codec, a: string, x: char, b: string, data: Json, token: Option<string>)
    requires Present(token) && UrlCutter(x)
    requires forall k | 0 <= k < |a| :: !UrlCutter(a[k]) && a[k] != '\'' && a[k] != '\\' && a[k] != '%'
    ensures Lookup(net, a + [x] + b) == None
    ensures GetFromDrive(net, c, a + [x] + b, token).0 == None
    ensures |SaveToDrive(net, c, a + [x] + b, data, token).1.log| >= |net.log| + 2
    ensures SaveToDrive(net, c, a + [x] + b, data, token).1.log[|net.log| + 1]
         == Call(token.value, CreateMedia(c.stringify(data)))
  {
    CutQueryRefused(net.remote, a, x, b);
    RefusedLookup(net, a + [x] + b);
    NothingFoundCreates(net, c, a + [x] + b, data, token);
  }

  /** A name with an odd number of quotes, no backslash, `%`, `&` or `#` makes an unterminated
      query literal: the lookup never finds the file, so every save uploads a new one and
      every read is `None`. */
  lemma UnbalancedNameAlwaysCreates(net: Net, c: Codec, fileName: string, data: Json, token: Option<string>)
    requires Present(token) && Count(fileName, '\'') % 2 == 1
    requires '\\' !in fileName && '%' !in fileName && '&' !in fileName && '#' !in fileName
    ensures Lookup(net, fileName) == None
    ensures GetFromDrive(net, c, fileName, token).0 == None
    ensures |SaveToDrive(net, c, fileName, data, token).1.log| >= |net.log| + 2
    ensures SaveToDrive(net, c, fileName, data, token).1.log[|net.log| + 1]
         == Call(token.value, CreateMedia(c.stringify(data)))
  {
    UnbalancedQueryRefused(net.remote, fileName);
    RefusedLookup(net, fileName);
    NothingFoundCreates(net, c, fileName, data, token);
  }

  /** A name holding quotes in balance is spliced into the query as query text, so the
      store reads it in its own language: `a' or name='b.json` asks for `a` or `b.json`.
      When that answer is another file, the save overwrites that file's content and keeps
      its name, and no file under the given name is created. */
  lemma QuoteInjectionOverwrites(net: Net, c: Codec, fileName: string, data: Json, token: Option<string>, j: FileId)
    requires Present(token) && '\'' in fileName && Count(fileName, '\'') % 2 == 0
    requires '&' !in fileName && '#' !in fileName
    requires net.remote.otherQueries(net.remote.files, Received(QueryFor(fileName))) == Some([j])
    requires j < |net.remote.files| && net.remote.files[j].name != fileName
    requires Reliable(net.script) && |net.script| >= 2
    ensures SaveToDrive(net, c, fileName, data, token).0
    ensures SaveToDrive(net, c, fileName, data, token).1.remote.files
         == net.remote.files[j := File(net.remote.files[j].name, c.stringify(data))]
  {
    BalancedQueryInterpreted(net.remote, fileName);
    assert DeliveredAt(net.script, 0) && DeliveredAt(net.script, 1);
    AnsweredLookup(net, fileName, [j]);
  }

  /** A delivered lookup of a name whose only non-plain characters are tabs and line breaks
      answers the first file named without them. */
  lemma StrippedNameLookup(net: Net, n: string)
    requires '&' !in n && '#' !in n && Plain(Unbroken(n)) && DeliveredAt(net.script, 0)
    ensures Lookup(net, n) == FirstNamed(net.remote.files, Unbroken(n))
  {
    LookupSeesUnbroken(net, n);
  }

  /** The URL carries `a<TAB>b.json` as `ab.json`, a plain name. */
  lemma TabNameExample()
    ensures Unbroken("a\tb.json") == "ab.json" && Plain("ab.json") && !Plain("a\tb.json")
  {
    assert "a\tb.json"[1] == '\t';
  }

  /** Saving under a name holding a tab or line break, when a file is named like it without
      them (`a<TAB>b.json` and `ab.json`), overwrites that other file's content and keeps
      its name. */
  lemma DroppedNameOverwrites(net: Net, c: Codec, n: string, data: Json, token: Option<string>, i: FileId)
    requires Present(token) && '&' !in n && '#' !in n && Plain(Unbroken(n))
    requires FirstNamed(net.remote.files, Unbroken(n)) == Some(i)
    requires Reliable(net.script) && |net.script| >= 2
    ensures SaveToDrive(net, c, n, data, token).0
    ensures SaveToDrive(net, c, n, data, token).1.remote.files
         == net.remote.files[i := File(Unbroken(n), c.stringify(data))]
  {
    assert DeliveredAt(net.script, 0) && DeliveredAt(net.script, 1);
    StrippedNameLookup(net, n);
  }

  /** Saving under a name holding a tab or line break, when no file is named like it
      without them, creates a file under the name as given; every later read of that name
      searches for the name without them and answers `None`. */
  lemma {:induction false} DroppedNameLost(net: Net, c: Codec, n: string, data: Json, token: Option<string>)
    requires Present(token) && '&' !in n && '#' !in n && Plain(Unbroken(n)) && Unbroken(n) != n
    requires FirstNamed(net.remote.files, Unbroken(n)) == None
    requires Reliable(net.script) && |net.script| >= 5
    ensures SaveToDrive(net, c, n, data, token).0
    ensures SaveToDrive(net, c, n, data, token).1.remote.files
         == net.remote.files + [File(n, c.stringify(data))]
    ensures GetFromDrive(SaveToDrive(net, c, n, data, token).1, c, n, token).0 == None
  {
    var files := net.remote.files;
    var m := Unbroken(n);
    assert DeliveredAt(net.script, 0) && DeliveredAt(net.script, 1) && DeliveredAt(net.script, 2);
    StrippedNameLookup(net, n);
    var net1 := SaveToDrive(net, c, n, data, token).1;
    SaveConsumes(net, c, n, data, token);
    var after := files + [File(n, c.stringify(data))];
    assert net1.remote.files == after;
    assert DeliveredAt(net1.script, 0);
    assert forall k | 0 <= k < |after| :: after[k].name != m by {
      forall k | 0 <= k < |after| ensures after[k].name != m {
        if k < |files| { assert after[k] == files[k]; }
      }
    }
    StrippedNameLookup(net1, n);
  }
}

=== FILE: generate.dfy ===
/** The flashcard-generation endpoint of the Python backend: the prompt it builds around
    the submitted text, and how it cuts the JSON array out of the language model's output.
    Running the model and decoding JSON are outside the model: the process outcome and the
    decoder are inputs. */
module Generate {
  import opened Common
  import opened Json
  import opened Text

  /** The instructions that precede the submitted text in the prompt. */
  const Instructions: string :=
    "You are an assistant that extracts flashcards from text. "
    + "Each line of the input text is in the format 'term - definition'. "
    + "Your task is to output a JSON array of tuples [front, back]. "
    + "For example, if the input text is:\n"
    + "femur - is a bone in a human leg\n"
    + "A bone in the upper arm is called humerus\n"
    + "Then the output should be: [[\"femur\", \"is a bone in a human leg\"], [\"humerus\", \"is a bone in the upper arm\"]].\n\n"
    + "Now extract flashcards from the following text:\n"

  /** The prompt: the fixed instructions, then the submitted text verbatim. */
  function Prompt(inputText: string): (p: string)
    ensures |p| == |Instructions| + |inputText|
    ensures p[..|Instructions|] == Instructions && p[|Instructions|..] == inputText
  {
    Instructions + inputText
  }

  /** The submitted text is recoverable from the prompt, so different texts give different prompts. */
  lemma PromptInjective(x: string, y: string)
    requires Prompt(x) == Prompt(y)
    ensures x == y
  {
    assert x == Prompt(x)[|Instructions|..];
  }

  /** The command line that runs the model on the prompt. */
  function Command(prompt: string): (argv: seq<string>)
    ensures |argv| == 4 && argv[3] == prompt
    ensures argv[..3] == ["ollama", "run", "llama2:7b"]
  {
    ["ollama", "run", "llama2:7b", prompt]
  }

  /** How the model process ended: with its standard output, with a non-zero exit status
      (described), or by raising an error before it ran (described). */
  datatype Process = Exited(stdout: string) | NonZeroExit(description: string) | Raised(description: string)

  /** Status code and JSON body. */
  datatype Response = Response(status: int, body: Json)

  const NoArrayMessage: string := "Could not find a JSON array in the output."

  /** Python's `text[i:j]` for `0 <= i` and `0 <= j <= |text|`: empty when `j <= i`. */
  function PySlice(text: string, i: nat, j: nat): (r: string)
    requires j <= |text|
    ensures j <= i ==> r == []
    ensures i < j ==> r == text[i..j]
  {
    if j <= i then [] else text[i..j]
  }

  /** No `[` comes before a `]`. */
  predicate NoOpenBeforeClose(text: string) {
    forall a, b | 0 <= a < b < |text| :: !(text[a] == '[' && text[b] == ']')
  }

  /** The span from the first `[` to the last `]`. An error when either is missing; empty
      when no `[` comes before a `]`; otherwise a piece of the text that opens with `[`,
      closes with `]`, and has no `[` before it and no `]` after it. */
  function ExtractSpan(text: string): (r: Result<string>)
    ensures r.Err? <==> '[' !in text || ']' !in text
    ensures r.Err? ==> r.message == NoArrayMessage
    ensures r.Ok? ==> (r.value == [] <==> RFind(text, ']') < Find(text, '['))
    ensures r.Ok? && r.value != [] ==>
      var i := Find(text, '[');
      && i + |r.value| <= |text| && text[i..i + |r.value|] == r.value
      && r.value[0] == '[' && r.value[|r.value| - 1] == ']'
      && '[' !in text[..i] && ']' !in text[i + |r.value|..]
  {
    var start := Find(text, '[');
    var end := RFind(text, ']');
    if start == -1 || end == -1 then Err(NoArrayMessage)
    else
      assert end + 1 <= start ==> end < start;
      Ok(PySlice(text, start, end + 1))
  }

  /** The span is empty exactly when no `[` comes before a `]`. */
  lemma EmptySpanIffNoOpenBeforeClose(text: string)
    requires ExtractSpan(text).Ok?
    ensures ExtractSpan(text).value == [] <==> NoOpenBeforeClose(text)
  {
    var start := Find(text, '[');
    var end := RFind(text, ']');
    if end < start {
      forall a, b | 0 <= a < b < |text| ensures !(text[a] == '[' && text[b] == ']') {
        assert text[a] == '[' ==> a >= start;
      }
    }
  }

  /** The span does not depend on the surrounding whitespace: cutting it from the stripped
      output, as the endpoint does, gives what cutting it from the raw output would. */
  lemma StripKeepsSpan(output: string)
    ensures ExtractSpan(PyStrip(output)) == ExtractSpan(output)
  {
    var t := PyStrip(output);
    var a := Lead(output, IsPySpace);
    assert !IsPySpace('[') && !IsPySpace(']');
    TrimKeepsOccurrences(output, IsPySpace, '[');
    TrimKeepsOccurrences(output, IsPySpace, ']');
    Inside(output, IsPySpace, ']', t, a);
    if '[' in output && ']' in output {
      var i := Find(output, '[');
      var j := RFind(output, ']') + 1;
      ShiftedSlice(output, t, a, i, j);
    }
  }

  /** A slice of a piece of `s` is the matching slice of `s`. */
  lemma ShiftedSlice(s: string, t: string, a: nat, i: nat, j: nat)
    requires a + |t| <= |s| && t == s[a..a + |t|]
    requires a <= i && a <= j <= a + |t|
    ensures PySlice(t, i - a, j - a) == PySlice(s, i, j)
  {
    if i < j {
      assert forall k | 0 <= k < j - i :: t[i - a..j - a][k] == t[i - a + k] == s[a + (i - a + k)] == s[i..j][k];
    }
  }

  function Detail(message: string): Response {
    Response(500, Single("detail", Str(message)))
  }

  /** The endpoint, given how the model process ends and the JSON decoder. Every failure is
      a 500 whose detail is the error's text; success is a 200 carrying whatever the span
      decodes to, unchecked. */
  function GenerateFlashcards(inputText: string, run: seq<string> -> Process, loads: string -> Result<Json>): (r: Response)
    ensures r.status == 200 || r.status == 500
    ensures r.status == 200 <==>
      && run(Command(Prompt(inputText))).Exited?
      && ExtractSpan(PyStrip(run(Command(Prompt(inputText))).stdout)).Ok?
      && loads(ExtractSpan(PyStrip(run(Command(Prompt(inputText))).stdout)).value).Ok?
    ensures r.status == 200 ==>
      r.body == Single("flashcards", loads(ExtractSpan(PyStrip(run(Command(Prompt(inputText))).stdout)).value).value)
    ensures run(Command(Prompt(inputText))).Exited? && !('[' in run(Command(Prompt(inputText))).stdout && ']' in run(Command(Prompt(inputText))).stdout) ==>
      r == Detail(NoArrayMessage)
  {
    match run(Command(Prompt(inputText)))
    case NonZeroExit(e) => Detail("Ollama command failed: " + e)
    case Raised(e) => Detail(e)
    case Exited(stdout) =>
      var outputText := PyStrip(stdout);
      StripKeepsSpan(stdout);
      match ExtractSpan(outputText)
      case Err(e) => Detail(e)
      case Ok(span) =>
        match loads(span)
        case Err(e) => Detail(e)
        case Ok(flashcards) => Response(200, Single("flashcards", flashcards))
  }

  /** When no `[` comes before a `]`, the span is empty, the decoder refuses it, and the
      request fails. */
  lemma EmptySpanFails(inputText: string, run: seq<string> -> Process, loads: string -> Result<Json>)
    requires run(Command(Prompt(inputText))).Exited?
    requires '[' in run(Command(Prompt(inputText))).stdout && ']' in run(Command(Prompt(inputText))).stdout
    requires NoOpenBeforeClose(run(Command(Prompt(inputText))).stdout)
    requires loads("").Err?
    ensures GenerateFlashcards(inputText, run, loads) == Detail(loads("").message)
  {
    EmptySpanIffNoOpenBeforeClose(run(Command(Prompt(inputText))).stdout);
    StripKeepsSpan(run(Command(Prompt(inputText))).stdout);
  }
}

=== FILE: json.dfy ===
/** JSON values as the source moves them around, and the serialiser/parser pair
    (`JSON.stringify`/`JSON.parse`, `response.json()`, Python's `json.loads`) as an
    abstract codec: its behaviour is an input of the model, not part of it. */
module Json {
  import opened Common

  /** A JSON value. Numbers are integers here: floating point is not modelled. */
  datatype Json =
    | Null
    | Bool(b: bool)
    | Num(n: int)
    | Str(s: string)
    | Arr(items: seq<Json>)
    | Obj(fields: map<string, Json>)

  /** JavaScript truthiness of a parsed value: `null`, `false`, `0` and `""` are falsy. */
  predicate Truthy(v: Json) {
    match v
    case Null => false
    case Bool(b) => b
    case Num(n) => n != 0
    case Str(s) => s != ""
    case _ => true
  }

  /** Property read `v.name` on a value that is not `null`: `None` is `undefined`,
      which is what every non-object yields for the property names the source reads. */
  function Property(v: Json, name: string): Option<Json> {
    if v.Obj? && name in v.fields then Some(v.fields[name]) else None
  }

  /** A one-field object, the shape of every response body the handlers build. */
  function Single(name: string, value: Json): Json {
    Obj(map[name := value])
  }

  /** The serialiser and the parser; a parse failure (a thrown `SyntaxError`) is `None`. */
  datatype Codec = Codec(stringify: Json -> string, parse: string -> Option<Json>)

  /** `v` survives a write and a read through the codec: its text is non-empty and parses back to `v`. */
  predicate Faithful(c: Codec, v: Json) {
    c.stringify(v) != "" && c.parse(c.stringify(v)) == Some(v)
  }
}

=== FILE: local_store.dfy ===
/** The browser-storage half of utils/storage.ts: the storage-preference lookup and
    the JSON read/write helpers over the browser's key-value store. */
module LocalStore {
  import opened Common
  import opened Json

  /** The browser's `localStorage`: text values under text keys. */
  type Store = map<string, string>

  /** Where the code runs: during server-side rendering `window` is undefined. */
  datatype Side = Server | Browser

  /** The two declared storage backends. */
  datatype StorageType = Local | Google {
    function Name(): string {
      match this
      case Local => "local"
      case Google => "google"
    }
  }

  /** Key under which the preference is kept. */
  const PreferenceKey: string := "storagePreference"

  /** The raw text stored under `key`, as `localStorage.getItem` returns it. */
  function Item(store: Store, key: string): Option<string> {
    if key in store then Some(store[key]) else None
  }

  /** `getStorageType`: "local" on the server; in the browser the stored text when it is
      non-empty, verbatim and unchecked, else "local". */
  function GetStorageType(side: Side, store: Store): (r: string)
    ensures r != ""
    ensures r != "local" ==> side.Browser? && Item(store, PreferenceKey) == Some(r)
    ensures side.Browser? && Present(Item(store, PreferenceKey)) ==> r == store[PreferenceKey]
  {
    if side.Server? then "local"
    else if Present(Item(store, PreferenceKey)) then store[PreferenceKey]
    else "local"
  }

  /** `saveToLocalStorage`: a no-op on the server, else the serialised value under `key`. */
  function SaveToLocalStorage(side: Side, c: Codec, store: Store, key: string, v: Json): (r: Store)
    ensures side.Server? ==> r == store
    ensures side.Browser? ==> key in r && c.parse(r[key]) == c.parse(c.stringify(v))
    ensures r.Keys == store.Keys + (if side.Browser? then {key} else {})
    ensures forall k | k in store && k != key :: k in r && r[k] == store[k]
  {
    if side.Server? then store else store[key := c.stringify(v)]
  }

  /** `getFromLocalStorage`: `None` on the server, for a missing or empty item, and when
      the text does not parse; never an error. */
  function GetFromLocalStorage(side: Side, c: Codec, store: Store, key: string): (r: Option<Json>)
    ensures r.Some? ==> side.Browser? && Present(Item(store, key)) && c.parse(store[key]) == r
    ensures side.Browser? && Present(Item(store, key)) ==> r == c.parse(store[key])
  {
    if side.Server? then None
    else
      var data := Item(store, key);
      if !Present(data) then None
      else c.parse(data.value)
  }

  /** Writing a faithful value and reading the same key gives the value back. */
  lemma ReadAfterWrite(c: Codec, store: Store, key: string, v: Json)
    requires Faithful(c, v)
    ensures GetFromLocalStorage(Browser, c, SaveToLocalStorage(Browser, c, store, key, v), key) == Some(v)
  {
  }

  /** A write changes what every other key reads as: not at all. */
  lemma WriteLeavesOtherKeys(side: Side, c: Codec, store: Store, key: string, v: Json, other: string)
    requires other != key
    ensures GetFromLocalStorage(side, c, SaveToLocalStorage(side, c, store, key, v), other)
         == GetFromLocalStorage(side, c, store, other)
  {
  }

  /** A preference outside the two declared backends, such as "file", is returned as stored. */
  lemma UndeclaredPreferencePassesThrough(store: Store)
    requires Item(store, PreferenceKey) == Some("file")
    ensures GetStorageType(Browser, store) == "file"
  {
  }
}

=== FILE: manual_flashcards.dfy ===
/** The manual card-entry page: the add form's handler and the Add button that calls it,
    and the carousel that shows the entered cards one at a time. */
module ManualFlashcards {
  import opened Text

  /** A flashcard: front and back text. */
  datatype Card = Card(front: string, back: string)

  /** The add form: both inputs and whether the form is open. */
  datatype Form = Form(front: string, back: string, open: bool)

  /** A queued update of the page's card list: an append by function, or a replacement by value. */
  datatype Update = Append(card: Card) | Replace(cards: seq<Card>)

  /** What `handleAdd` does: the list it returns, the list updates it queues, and the form afterwards. */
  datatype Added = Added(result: seq<Card>, queued: seq<Update>, form: Form)

  /** Both inputs are empty after trimming. */
  predicate Blank(f: Form) {
    AllIn(f.front, IsJsSpace) && AllIn(f.back, IsJsSpace)
  }

  /** `handleAdd`. A blank card returns the empty list and queues nothing. Otherwise it
      queues an append of the untrimmed card, clears and closes the form, and returns the
      card pushed onto a list that is created empty on every render: the new card alone. */
  function HandleAdd(f: Form): (r: Added)
    ensures Blank(f) ==> r == Added([], [], f)
    ensures !Blank(f) ==>
      && r.result == [Card(f.front, f.back)]
      && r.queued == [Append(Card(f.front, f.back))]
      && r.form == Form("", "", false)
  {
    if JsTrim(f.front) == "" && JsTrim(f.back) == "" then Added([], [], f)
    else
      var card := Card(f.front, f.back);
      var currentDeck: seq<Card> := [];
      Added(currentDeck + [card], [Append(card)], Form("", "", false))
  }

  /** One queued update applied to the list. */
  function Apply(cards: seq<Card>, u: Update): seq<Card> {
    match u
    case Append(card) => cards + [card]
    case Replace(cs) => cs
  }

  /** Queued updates applied in the order they were queued. */
  function ApplyAll(cards: seq<Card>, us: seq<Update>): (r: seq<Card>)
    ensures us != [] && us[|us| - 1].Replace? ==> r == us[|us| - 1].cards
    ensures (forall k | 0 <= k < |us| :: us[k].Append?) ==>
      && |r| == |cards| + |us|
      && r[..|cards|] == cards
      && forall k | 0 <= k < |us| :: r[|cards| + k] == us[k].card
    decreases |us|
  {
    if us == [] then cards
    else
      var r := ApplyAll(Apply(cards, us[0]), us[1..]);
      assert (forall k | 0 <= k < |us| :: us[k].Append?) ==>
        && r[..|cards| + 1][..|cards|] == r[..|cards|]
        && forall k | 0 < k < |us| :: us[k] == us[1..][k - 1];
      r
  }

  /** The Add button as written: `setFlashcards(handleAdd())`. The append `handleAdd`
      queues runs first and the replacement by its return value last, so the list ends as
      that return value whatever it held before: empty for a blank card, else the new
      card alone. */
  function AddButtonAsWritten(f: Form, cards: seq<Card>): (r: (Form, seq<Card>))
    ensures r.0 == HandleAdd(f).form
    ensures Blank(f) ==> r.1 == []
    ensures !Blank(f) ==> r.1 == [Card(f.front, f.back)]
  {
    var added := HandleAdd(f);
    (added.form, ApplyAll(cards, added.queued + [Replace(added.result)]))
  }

  /** The Add button as evidently intended: only the queued append takes effect, so a
      blank card leaves the list alone and any other card is added at the end. */
  function AddButton(f: Form, cards: seq<Card>): (r: (Form, seq<Card>))
    ensures r.0 == HandleAdd(f).form
    ensures Blank(f) ==> r.1 == cards
    ensures !Blank(f) ==> r.1 == cards + [Card(f.front, f.back)]
    ensures r.1 == ApplyAll(cards, HandleAdd(f).queued)
  {
    var added := HandleAdd(f);
    assert !Blank(f) ==> ApplyAll(cards, added.queued) == ApplyAll(cards + [Card(f.front, f.back)], []);
    (added.form, ApplyAll(cards, added.queued))
  }

  /** The Add button as written loses the cards entered before: adding ("c", "d") to a
      list holding ("a", "b") leaves only ("c", "d"), where the intended button keeps both. */
  lemma AddButtonAsWrittenDropsEarlierCards()
    ensures AddButtonAsWritten(Form("c", "d", true), [Card("a", "b")]).1 == [Card("c", "d")]
    ensures AddButton(Form("c", "d", true), [Card("a", "b")]).1 == [Card("a", "b"), Card("c", "d")]
  {
    assert "c"[0] == 'c' && !IsJsSpace('c');
  }

  /** The carousel position and the direction of the last move (+1 right, -1 left, 0 none). */
  datatype Carousel = Carousel(index: int, direction: int)

  /** Right arrow: the last card wraps to the first, any other advances by one. */
  function Right(len: int, c: Carousel): (r: Carousel)
    ensures r.direction == 1
    ensures 0 <= c.index < len ==> 0 <= r.index < len && r.index == (c.index + 1) % len
  {
    Carousel(if c.index == len - 1 then 0 else c.index + 1, 1)
  }

  /** Left arrow: the first card wraps to the last, any other steps back by one. */
  function Left(len: int, c: Carousel): (r: Carousel)
    ensures r.direction == -1
    ensures 0 <= c.index < len ==> 0 <= r.index < len && r.index == (c.index - 1) % len
  {
    Carousel(if c.index == 0 then len - 1 else c.index - 1, -1)
  }

  /** The two arrows undo each other. */
  lemma LeftUndoesRight(len: int, c: Carousel)
    requires 0 <= c.index < len
    ensures Left(len, Right(len, c)).index == c.index
    ensures Right(len, Left(len, c)).index == c.index
  {
  }

  /** `k` presses of the right arrow. */
  function RightTimes(len: int, c: Carousel, k: nat): Carousel {
    if k == 0 then c else Right(len, RightTimes(len, c, k - 1))
  }

  /** `k` presses of the left arrow. */
  function LeftTimes(len: int, c: Carousel, k: nat): Carousel {
    if k == 0 then c else Left(len, LeftTimes(len, c, k - 1))
  }

  /** `k` right presses move `k` places forward around the list. */
  lemma {:induction false} RightTimesIndex(len: int, c: Carousel, k: nat)
    requires 0 <= c.index < len
    ensures RightTimes(len, c, k).index == (c.index + k) % len
  {
    if k > 0 {
      RightTimesIndex(len, c, k - 1);
      ModStep(c.index + k - 1, len, 1);
    }
  }

  /** `k` left presses move `k` places back around the list. */
  lemma {:induction false} LeftTimesIndex(len: int, c: Carousel, k: nat)
    requires 0 <= c.index < len
    ensures LeftTimes(len, c, k).index == (c.index - k) % len
  {
    if k > 0 {
      LeftTimesIndex(len, c, k - 1);
      ModStep(c.index - k + 1, len, -1);
    }
  }

  /** Moving by `d` from a position taken modulo `n` is moving by `d` and then taking it. */
  lemma ModStep(a: int, n: int, d: int)
    requires n > 0
    ensures (a % n + d) % n == (a + d) % n
  {
    var q := a / n;
    var b := a % n + d;
    var q1 := b / n;
    assert b == q1 * n + b % n;
    assert a + d == (q + q1) * n + b % n;
    ModUnique(a + d, n, q + q1, b % n);
  }

  /** The remainder is the only one in range: `a == q * n + r` with `0 <= r < n` makes `r`
      the remainder of `a`. */
  lemma ModUnique(a: int, n: int, q: int, r: int)
    requires n > 0 && a == q * n + r && 0 <= r < n
    ensures a % n == r
  {
    var q0 := a / n;
    assert a == q0 * n + a % n;
    assert (q - q0) * n == q * n - q0 * n;
    MulBelow(q - q0, n);
  }

  /** The only multiple of `n` strictly between `-n` and `n` is zero. */
  lemma {:induction false} MulBelow(m: int, n: int)
    requires n > 0 && -n < m * n < n
    ensures m == 0
  {
    if m >= 1 {
      MulAtLeast(m, n);
    } else if m <= -1 {
      MulAtLeast(-m, n);
    }
  }

  /** A positive multiple of `n` is at least `n`. */
  lemma {:induction false} MulAtLeast(x: int, n: int)
    requires x >= 1 && n > 0
    ensures x * n >= n
  {
    if x > 1 {
      MulAtLeast(x - 1, n);
      assert x * n == (x - 1) * n + n;
    }
  }

  /** As many presses as there are cards, in either direction, come back to the start. */
  lemma FullTurnReturns(len: int, c: Carousel)
    requires 0 <= c.index < len
    ensures RightTimes(len, c, len).index == c.index
    ensures LeftTimes(len, c, len).index == c.index
  {
    RightTimesIndex(len, c, len);
    ModUnique(c.index + len, len, 1, c.index);
    LeftTimesIndex(len, c, len);
    ModUnique(c.index - len, len, -1, c.index);
  }

  /** Which Add button the page runs. */
  datatype AddRule = AsWritten | Intended

  /** The page: its card list, the add form, and the carousel, which exists only while the
      list is non-empty. */
  datatype Page = Page(cards: seq<Card>, form: Form, carousel: Carousel, mounted: bool)

  /** What the user can do on the page. */
  datatype Action = EditFront(text: string) | EditBack(text: string) | ToggleForm | PressAdd | PressLeft | PressRight

  /** The page on first render. */
  function Start(): Page {
    Page([], Form("", "", false), Carousel(0, 0), false)
  }

  /** The carousel after the list changes: it unmounts when the list empties, starts fresh
      at the first card when it mounts, and otherwise keeps its state. */
  function Remount(p: Page, cards: seq<Card>, form: Form): Page {
    if cards == [] then Page(cards, form, Carousel(0, 0), false)
    else if p.mounted then Page(cards, form, p.carousel, true)
    else Page(cards, form, Carousel(0, 0), true)
  }

  /** One user action. The Add button exists only while the form is open and the arrows
      only while the carousel is shown. */
  function Step(p: Page, a: Action, rule: AddRule): Page {
    match a
    case EditFront(t) => p.(form := p.form.(front := t))
    case EditBack(t) => p.(form := p.form.(back := t))
    case ToggleForm => p.(form := p.form.(open := !p.form.open))
    case PressAdd =>
      if !p.form.open then p
      else
        var (form, cards) := if rule.AsWritten? then AddButtonAsWritten(p.form, p.cards) else AddButton(p.form, p.cards);
        Remount(p, cards, form)
    case PressLeft => if p.mounted then p.(carousel := Left(|p.cards|, p.carousel)) else p
    case PressRight => if p.mounted then p.(carousel := Right(|p.cards|, p.carousel)) else p
  }

  /** The carousel is shown exactly when there are cards, and its index then names one. */
  predicate Valid(p: Page) {
    (p.mounted <==> p.cards != []) && (p.mounted ==> 0 <= p.carousel.index < |p.cards|)
  }

  /** The card the carousel shows, `deck[currentIndex]`: defined on every valid page. */
  function Shown(p: Page): (r: Card)
    requires Valid(p) && p.mounted
    ensures r in p.cards
  {
    p.cards[p.carousel.index]
  }

  /** What holds of every page reachable from the start under an Add button: the page is
      valid, and under the button as written the list holds at most one card. */
  predicate Reachable(p: Page, rule: AddRule) {
    Valid(p) && (rule.AsWritten? ==> |p.cards| <= 1)
  }

  lemma StartReachable(rule: AddRule)
    ensures Reachable(Start(), rule)
  {
  }

  /** Every action keeps the page reachable under either Add button, so the carousel never
      reads past the list. */
  lemma StepKeepsReachable(p: Page, a: Action, rule: AddRule)
    requires Reachable(p, rule)
    ensures Reachable(Step(p, a, rule), rule)
  {
  }

  /** Under the intended Add button the list only grows, and a press of Add on an open
      form with a non-blank card grows it by exactly that card. */
  lemma IntendedAddAppends(p: Page, a: Action)
    ensures p.cards <= Step(p, a, Intended).cards
    ensures a.PressAdd? && p.form.open && !Blank(p.form) ==>
      Step(p, a, Intended).cards == p.cards + [Card(p.form.front, p.form.back)]
  {
  }
}

=== FILE: preference_api.dfy ===
/** The preference endpoint of the storage API: a POST naming one of the two declared
    backends sets the preference cookie; anything else is refused. */
module PreferenceApi {
  import opened Common
  import opened Json

  /** The parts of a request the handler reads. A `null` body is `Null`. */
  datatype Request = Request(verb: string, body: Json)

  /** Status code, JSON body, and the Set-Cookie header if one is set. */
  datatype Response = Response(status: int, body: Json, setCookie: Option<string>)

  const CookieName: string := "storagePreference"

  /** The attributes after the value: site-wide, hidden from scripts, same-site only, one year. */
  const CookieAttributes: string := "; Path=/" + "; HttpOnly" + "; SameSite=Strict" + "; Max-Age=31536000"

  /** The Set-Cookie header for a preference. */
  function CookieFor(t: string): (h: string)
    ensures CookieName + "=" + t <= h && |h| == |CookieName| + 1 + |t| + |CookieAttributes|
    ensures h[|CookieName| + 1 + |t|..] == CookieAttributes
  {
    CookieName + "=" + t + CookieAttributes
  }

  /** The only preferences the endpoint accepts. */
  predicate Accepted(t: Json) {
    t == Str("local") || t == Str("google")
  }

  /** The handler. A method other than POST is refused; destructuring a `null` body throws
      and is reported as a failure; a `type` other than exactly "local" or "google" is
      refused without a cookie; an accepted one sets the cookie and reports success. */
  function Handle(req: Request): (r: Response)
    ensures req.verb != "POST" ==> r == Response(405, Single("error", Str("Method not allowed")), None)
    ensures req.verb == "POST" && req.body == Null ==> r == Response(500, Single("error", Str("Failed to save preference")), None)
    ensures r.setCookie.Some? <==> req.verb == "POST" && req.body != Null && Property(req.body, "type").Some? && Accepted(Property(req.body, "type").value)
    ensures r.setCookie.Some? ==>
      && r.status == 200 && r.body == Single("success", Bool(true))
      && r.setCookie == Some(CookieFor(Property(req.body, "type").value.s))
    ensures req.verb == "POST" && req.body != Null && !(Property(req.body, "type").Some? && Accepted(Property(req.body, "type").value)) ==>
      r == Response(400, Single("error", Str("Invalid storage type")), None)
  {
    if req.verb != "POST" then Response(405, Single("error", Str("Method not allowed")), None)
    else if req.body == Null then Response(500, Single("error", Str("Failed to save preference")), None)
    else
      var t := Property(req.body, "type");
      if !(t.Some? && Accepted(t.value)) then Response(400, Single("error", Str("Invalid storage type")), None)
      else Response(200, Single("success", Bool(true)), Some(CookieFor(t.value.s)))
  }

  /** "file", which the guest sign-in writes into browser storage, is not accepted here. */
  lemma FileIsRefused()
    ensures Handle(Request("POST", Obj(map["type" := Str("file")]))).status == 400
    ensures Handle(Request("POST", Obj(map["type" := Str("file")]))).setCookie == None
  {
  }
}

=== FILE: storage_selector.dfy ===
/** The storage selector component: the backend shown, loaded from the stored preference
    on mount, and the rule for accepting a new choice. */
module StorageSelector {
  import opened Common
  import opened LocalStore

  /** The component's world: the backend shown, the browser store, the choices reported
      to the parent, and how many sign-in alerts were raised. */
  datatype Selector = Selector(shown: string, store: Store, reported: seq<StorageType>, alerts: nat)

  /** The first render shows "local"; the mount effect then shows the stored preference. */
  function Mount(store: Store): (r: Selector)
    ensures r.store == store && r.reported == [] && r.alerts == 0
    ensures r.shown == GetStorageType(Browser, store)
    ensures r.shown == "local" || Item(store, PreferenceKey) == Some(r.shown)
  {
    var first := Selector("local", store, [], 0);
    first.(shown := GetStorageType(Browser, store))
  }

  /** Choosing a backend. Google without a session is refused with an alert and nothing
      else changes; any other choice is shown, written raw under the preference key, and
      reported. */
  function HandleStorageChange(s: Selector, signedIn: bool, t: StorageType): (r: Selector)
    ensures t == Google && !signedIn ==> r == s.(alerts := s.alerts + 1)
    ensures t == Local || signedIn ==>
      && r.shown == t.Name()
      && r.store == s.store[PreferenceKey := t.Name()]
      && r.reported == s.reported + [t]
      && r.alerts == s.alerts
  {
    if t == Google && !signedIn then s.(alerts := s.alerts + 1)
    else Selector(t.Name(), s.store[PreferenceKey := t.Name()], s.reported + [t], s.alerts)
  }

  /** An accepted choice is what the preference lookup reads back afterwards. */
  lemma AcceptedChoiceReadsBack(s: Selector, signedIn: bool, t: StorageType)
    requires t == Local || signedIn
    ensures GetStorageType(Browser, HandleStorageChange(s, signedIn, t).store) == t.Name()
    ensures Mount(HandleStorageChange(s, signedIn, t).store).shown == t.Name()
  {
  }

  /** Choosing the same backend again leaves the store and the shown backend as they were. */
  lemma ChoiceIsIdempotent(s: Selector, signedIn: bool, t: StorageType)
    ensures HandleStorageChange(HandleStorageChange(s, signedIn, t), signedIn, t).store
         == HandleStorageChange(s, signedIn, t).store
    ensures HandleStorageChange(HandleStorageChange(s, signedIn, t), signedIn, t).shown
         == HandleStorageChange(s, signedIn, t).shown
  {
  }
}

=== FILE: text.dfy ===
/** String operations the source relies on: JavaScript's `String.prototype.trim`,
    Python's `str.strip()`, and the first/last occurrence searches `find`/`rfind`. */
module Text {

  /** Unicode category Zs (space separators). */
  predicate IsSpaceSeparator(c: char) {
    c == ' ' || c == '\U{00A0}' || c == '\U{1680}' || ('\U{2000}' <= c <= '\U{200A}')
    || c == '\U{202F}' || c == '\U{205F}' || c == '\U{3000}'
  }

  /** TAB, LF, VT, FF and CR. */
  predicate IsControlSpace(c: char) {
    '\t' <= c <= '\r'
  }

  /** The WhiteSpace and LineTerminator code points that JavaScript's `trim` removes. */
  predicate IsJsSpace(c: char) {
    IsControlSpace(c) || IsSpaceSeparator(c) || c == '\U{2028}' || c == '\U{2029}' || c == '\U{FEFF}'
  }

  /** The code points for which Python's `str.isspace` holds; `str.strip()` removes these. */
  predicate IsPySpace(c: char) {
    IsControlSpace(c) || ('\U{001C}' <= c <= '\U{001F}') || c == '\U{0085}'
    || IsSpaceSeparator(c) || c == '\U{2028}' || c == '\U{2029}'
  }

  /** Every character of `s` satisfies `sp`. */
  predicate AllIn(s: string, sp: char -> bool) {
    forall k | 0 <= k < |s| :: sp(s[k])
  }

  /** Scans forward from `i` over `sp` characters: the result is the first position at or
      after `i` that does not hold one (or `|s|`). */
  function SkipForward(s: string, sp: char -> bool, i: nat): (n: nat)
    requires i <= |s|
    ensures i <= n <= |s|
    ensures forall k | i <= k < n :: sp(s[k])
    ensures n == |s| || !sp(s[n])
    decreases |s| - i
  {
    if i < |s| && sp(s[i]) then SkipForward(s, sp, i + 1) else i
  }

  /** Scans backward from `j` down to `lo` over `sp` characters: the result is the end of
      the last position in `lo..j` that does not hold one (or `lo`). */
  function SkipBackward(s: string, sp: char -> bool, lo: nat, j: nat): (m: nat)
    requires lo <= j <= |s|
    ensures lo <= m <= j
    ensures forall k | m <= k < j :: sp(s[k])
    ensures m == lo || !sp(s[m - 1])
    decreases j
  {
    if lo < j && sp(s[j - 1]) then SkipBackward(s, sp, lo, j - 1) else j
  }

  /** Number of leading `sp` characters of `s`. */
  function Lead(s: string, sp: char -> bool): (n: nat)
    ensures n <= |s|
  {
    SkipForward(s, sp, 0)
  }

  /** Both ends trimmed: a contiguous piece of `s` starting at `Lead(s, sp)`, with only
      `sp` characters around it and none at its ends; empty exactly when `s` is all `sp`. */
  function Trim(s: string, sp: char -> bool): (r: string)
    ensures Lead(s, sp) + |r| <= |s| && r == s[Lead(s, sp)..Lead(s, sp) + |r|]
    ensures forall k | 0 <= k < Lead(s, sp) :: sp(s[k])
    ensures forall k | Lead(s, sp) + |r| <= k < |s| :: sp(s[k])
    ensures r == [] || (!sp(r[0]) && !sp(r[|r| - 1]))
    ensures r == [] <==> AllIn(s, sp)
  {
    var a := Lead(s, sp);
    var b := SkipBackward(s, sp, a, |s|);
    assert a < b ==> !sp(s[a]) && !sp(s[b - 1]);
    s[a..b]
  }

  /** `String.prototype.trim`. */
  function JsTrim(s: string): string {
    Trim(s, IsJsSpace)
  }

  /** Python's `str.strip()` with no argument. */
  function PyStrip(s: string): string {
    Trim(s, IsPySpace)
  }

  /** Index of the first `c` in `s`, or -1 (Python `find`, JavaScript `indexOf`). */
  function Find(s: string, c: char): (r: int)
    ensures -1 <= r < |s|
    ensures r == -1 <==> c !in s
    ensures 0 <= r ==> s[r] == c && c !in s[..r]
  {
    if |s| == 0 then -1
    else if s[0] == c then 0
    else
      var k := Find(s[1..], c);
      if k == -1 then -1
      else
        assert s[..k + 1] == [s[0]] + s[1..][..k];
        k + 1
  }

  /** Index of the last `c` in `s`, or -1 (Python `rfind`). */
  function RFind(s: string, c: char): (r: int)
    ensures -1 <= r < |s|
    ensures r == -1 <==> c !in s
    ensures 0 <= r ==> s[r] == c && c !in s[r + 1..]
  {
    if |s| == 0 then -1
    else if s[|s| - 1] == c then |s| - 1
    else
      var k := RFind(s[..|s| - 1], c);
      if k == -1 then
        assert s == s[..|s| - 1] + [s[|s| - 1]];
        -1
      else
        assert s[k + 1..] == s[..|s| - 1][k + 1..] + [s[|s| - 1]];
        k
  }

  /** How many times `c` occurs in `s`. */
  function Count(s: string, c: char): (n: nat)
    ensures n <= |s|
    ensures n == 0 <==> c !in s
  {
    if s == [] then 0
    else
      assert s == [s[0]] + s[1..];
      (if s[0] == c then 1 else 0) + Count(s[1..], c)
  }

  /** Occurrences in a concatenation add up. */
  lemma {:induction false} CountAppend(a: string, b: string, c: char)
    ensures Count(a + b, c) == Count(a, c) + Count(b, c)
  {
    if a != [] {
      assert (a + b)[1..] == a[1..] + b;
      CountAppend(a[1..], b, c);
    } else {
      assert a + b == b;
    }
  }

  /** Trimming never removes a character that is not `sp`: such a character occurs in the
      trimmed text exactly when it occurs in `s`, and its first and last occurrences move
      back by the number of leading characters removed. */
  lemma TrimKeepsOccurrences(s: string, sp: char -> bool, c: char)
    requires !sp(c)
    ensures c in Trim(s, sp) <==> c in s
    ensures c in s ==> Find(Trim(s, sp), c) == Find(s, c) - Lead(s, sp)
    ensures c in s ==> RFind(Trim(s, sp), c) == RFind(s, c) - Lead(s, sp)
  {
    var t := Trim(s, sp);
    var a := Lead(s, sp);
    Inside(s, sp, c, t, a);
    if c in s {
      FindShift(s, c, t, a);
      RFindShift(s, c, t, a);
    }
  }

  /** Every occurrence of a non-`sp` character lies inside the trimmed piece. */
  lemma Inside(s: string, sp: char -> bool, c: char, t: string, a: nat)
    requires !sp(c) && t == Trim(s, sp) && a == Lead(s, sp)
    ensures a + |t| <= |s| && t == s[a..a + |t|]
    ensures forall k | 0 <= k < |s| && s[k] == c :: a <= k < a + |t|
  {
  }

  /** The first occurrence in a piece of `s` holding all occurrences, shifted. */
  lemma {:induction false} FindShift(s: string, c: char, t: string, a: nat)
    requires a + |t| <= |s| && t == s[a..a + |t|]
    requires forall k | 0 <= k < |s| && s[k] == c :: a <= k < a + |t|
    requires c in s
    ensures c in t && Find(t, c) == Find(s, c) - a
  {
    var f := Find(s, c);
    assert t[f - a] == c;
    var g := Find(t, c);
    assert s[g + a] == c;
  }

  /** The last occurrence in a piece of `s` holding all occurrences, shifted. */
  lemma {:induction false} RFindShift(s: string, c: char, t: string, a: nat)
    requires a + |t| <= |s| && t == s[a..a + |t|]
    requires forall k | 0 <= k < |s| && s[k] == c :: a <= k < a + |t|
    requires c in s
    ensures RFind(t, c) == RFind(s, c) - a
  {
    var l := RFind(s, c);
    assert t[l - a] == c;
    var m := RFind(t, c);
    assert s[m + a] == c;
  }
}

=== FILE: type_api.dfy ===
/** The type endpoint of the storage API: a GET answers the preference cookie, verbatim,
    or "local" without one. Also the browser's reading of the cookie the preference
    endpoint sets, which connects the two endpoints. */
module TypeApi {
  import opened Common
  import opened Json
  import opened Text
  import PreferenceApi

  /** The parts of a request the handler reads: the method and the request cookies. */
  datatype Request = Request(verb: string, cookies: map<string, string>)

  datatype Response = Response(status: int, body: Json)

  /** The handler. A method other than GET is refused; otherwise the cookie's value is
      answered as it is, and "local" when the cookie is missing or empty. */
  function Handle(req: Request): (r: Response)
    ensures req.verb != "GET" ==> r == Response(405, Single("error", Str("Method not allowed")))
    ensures req.verb == "GET" ==> r.status == 200 && r.body.Obj? && r.body.fields.Keys == {"type"}
    ensures req.verb == "GET" && PreferenceApi.CookieName in req.cookies && req.cookies[PreferenceApi.CookieName] != "" ==>
      r.body == Single("type", Str(req.cookies[PreferenceApi.CookieName]))
    ensures req.verb == "GET" && !(PreferenceApi.CookieName in req.cookies && req.cookies[PreferenceApi.CookieName] != "") ==>
      r.body == Single("type", Str("local"))
  {
    if req.verb != "GET" then Response(405, Single("error", Str("Method not allowed")))
    else
      var pref := if PreferenceApi.CookieName in req.cookies then Some(req.cookies[PreferenceApi.CookieName]) else None;
      Response(200, Single("type", Str(if Present(pref) then pref.value else "local")))
  }

  /** The name and value a browser keeps from a Set-Cookie header: the text before the
      first `;`, split at its first `=` (section 5.2 of RFC 6265, without whitespace trimming). */
  function CookiePair(header: string): (r: Option<(string, string)>)
    ensures r.Some? ==> r.value.0 + "=" + r.value.1 <= header
  {
    var end := Find(header, ';');
    var pair := if end == -1 then header else header[..end];
    var eq := Find(pair, '=');
    if eq == -1 then None
    else
      assert pair[..eq] + "=" + pair[eq + 1..] == pair;
      Some((pair[..eq], pair[eq + 1..]))
  }

  /** The first `c` of `a + b`, when `a` holds none, is the first `c` of `b`, shifted. */
  lemma {:induction false} FindPastPrefix(a: string, b: string, c: char)
    requires c !in a && c in b
    ensures Find(a + b, c) == |a| + Find(b, c)
  {
    var s := a + b;
    var i := |a| + Find(b, c);
    assert s[i] == c;
    assert s[..i] == a + b[..Find(b, c)];
  }

  /** A header `name=value` followed by attributes that open with `;` reads back as that
      pair, when neither the name nor the value holds a separator. */
  lemma {:induction false} PairReadsBack(name: string, value: string, attrs: string)
    requires ';' !in name && '=' !in name && ';' !in value
    requires |attrs| > 0 && attrs[0] == ';'
    ensures CookiePair(name + "=" + value + attrs) == Some((name, value))
  {
    var pair := name + "=" + value;
    var h := pair + attrs;
    assert ';' !in pair;
    FindPastPrefix(pair, attrs, ';');
    assert Find(attrs, ';') == 0;
    assert h[..Find(h, ';')] == pair;
    FindPastPrefix(name, "=" + value, '=');
    assert pair[..|name|] == name;
    assert pair[|name| + 1..] == value;
  }

  /** The cookie set for a value without `;` is read back by the browser as that value
      under the preference name. */
  lemma CookieReadsBack(t: string)
    requires ';' !in t
    ensures CookiePair(PreferenceApi.CookieFor(t)) == Some((PreferenceApi.CookieName, t))
  {
    assert PreferenceApi.CookieAttributes[0] == ';';
    PairReadsBack(PreferenceApi.CookieName, t, PreferenceApi.CookieAttributes);
  }

  /** Whatever preference the preference endpoint accepts, the type endpoint then answers
      unchanged from the cookie the browser keeps. */
  lemma AcceptedPreferenceReadsBack(req: PreferenceApi.Request)
    requires PreferenceApi.Handle(req).setCookie.Some?
    ensures
      var t := Property(req.body, "type").value.s;
      && CookiePair(PreferenceApi.Handle(req).setCookie.value) == Some((PreferenceApi.CookieName, t))
      && Handle(Request("GET", map[PreferenceApi.CookieName := t])).body == Single("type", Str(t))
  {
    var t := Property(req.body, "type").value.s;
    assert t == "local" || t == "google";
    assert ';' !in t && t != "";
    CookieReadsBack(t);
  }
}
